=== FILE: README.md ===
# Shipper entity store, modelled in Dafny

The shipper web application lets a signed-in user "ship" two users together. Its
entity store, `DBManager.js`, keeps two process-wide `Map` caches, `users` (keyed by
the identity provider's user id) and `ships` (keyed by the generated ship id), in
front of a document store with a `users` and a `ships` collection. This project
models that store as pure transitions over an immutable `State`: both caches, with
JavaScript `Map` semantics (insertion order, in-place overwrite), and the two
collections as lists of documents in natural order. It models:

- the read-through operations `getUser`, `userExists`, `getUserByMongoId`, `getShip`
  (by id and by member list), `getShipByMongoId` and `shipExists` (by id);
- the writes `registerUser`, `updateUser` and `registerShip`, with `generateShipId`
  retrying until `shipExists` reports the id as fresh;
- the participation toggle `ship(user, ship)`, which edits the user's `shipping`
  list and the ship's `shippers` list and saves both documents.

Every store round trip takes an `Io` oracle (`Served` or `Refused`). A refused call
rejects with `StoreError`. A property read on `null` rejects with `TypeError`.

Four things are parameters:

- the random bytes of `generateShipId` (a list of draws);
- the time `Date.now()` and the fresh `_id` of a new document, which no stored document of its collection carries;
- the store's answer to the `$all` member query;
- the fresh array object that `getShipByMongoId` caches its ship under.

Files: `outcomes.dfy` (Option, Result, Scan, Io), `jsmaps.dfy` (the `Map` model),
`jsarrays.dfy` (`findIndex`, `splice`), `seqs.dfy`, `hex.dfy`, `records.dfy` (the
documents and `Object.assign`), `store.dfy` (the collections), `shipping.dfy` (the
toggle), `members.dfy` (the member-list test), `db.dfy` (the operations),
`properties.dfy` (how they compose).

## Model

| member | source | states |
|---|---|---|
| DbManager.GetUser | DBManager.js:98-110 | A cache hit returns the cached value and changes nothing. A miss with a failing store rejects and caches nothing. A served miss resolves with the store's first user of that id, caches that answer under the id (a `null` included) and leaves every other entry alone. The new entry goes last in iteration order. |
| DbManager.UserExists | DBManager.js:111-113 | A cached key answers true without a store call, even when its value is `null`. Otherwise the answer is whether the store holds a user with that id, or a rejection when the store fails. |
| DbManager.RegisterUser | DBManager.js:62-79 | On a served save the new user has the profile's fields, `publicFlags` from `public_flags`, `premiumType` from `premium_type`, empty `shipping` and `joinedAt` = now. It is appended to the collection and cached under `data.id`: in place when that key is cached, last in iteration order otherwise. Its `_id` is one no stored user carries. A failed save changes nothing. |
| DbManager.UpdateUser | DBManager.js:47-60 | A store error changes nothing. On success the store updates its first user with that id and the result is that document as it was before. A cached user takes exactly the carried keys and keeps every other field, in its place in iteration order. No entry is created for an uncached id. A cached `null` makes the call fail with `TypeError`. |
| DbManager.ScanUsers | DBManager.js:82-86 | The walk over cached users stops at the first user with the `_id`. It stops at a cached `null`, which throws. It misses only when every value is a user with another `_id`. |
| DbManager.LemmaScanUsersHitAt | DBManager.js:82-86 | When the cache holds a user with the `_id` at some position, and every earlier value is a user with another `_id`, the walk returns that user. |
| DbManager.LemmaScanUsersHitAppend | DBManager.js:82-86 | A value added at the end of the cache does not change a walk that already hits. |
| DbManager.GetUserByMongoId | DBManager.js:80-97 | The cache walk decides first. On a miss the store's answer is returned; a loaded user is cached under its own id; a `null` answer leaves the state as it was. |
| DbManager.ShipExistsById | DBManager.js:205-209 | For a string id, a cached key answers true without a store call. Otherwise the answer is whether the store holds a ship with that id, or a rejection. |
| DbManager.GenerateShipId | DBManager.js:212-216 | The retries stop at the first draw whose id is not reported taken, and every earlier id was taken. The result is that draw's 32-digit lower-case hex id, which `shipExists` reported false, or the existence check's failure. |
| DbManager.LemmaGeneratedIdFresh | DBManager.js:212-216 | A generated id is the hex rendering of one of the draws, and `shipExists` reported that id false. So no ship is cached under it as a string key and no stored ship has it. |
| DbManager.RegisterShip | DBManager.js:140-154 | The new ship's id comes from `generateShipId`, and `shipExists` had reported it false. The document carries the given people, shippers and creator, with `createdAt` = now. It is appended to the collection and cached under its id, last in iteration order. Its `_id` is one no stored ship carries. Once an id is generated, a served save resolves with the new ship. Any failure is a store error and leaves the state unchanged. |
| DbManager.InsertShip | DBManager.js:152-153 | Saving a new ship appends it to the collection and caches it under its id, in place when that key is cached and last in iteration order otherwise. Users and every other ship entry are untouched. |
| DbManager.GetShipById | DBManager.js:155-167 | A cache hit returns the cached value unchanged. A served miss returns the store's ship of that id and caches it, `null` included, as the last entry in iteration order. A failing store rejects and caches nothing. |
| DbManager.GetShipByMembers | DBManager.js:168-191 | A matching cached ship is returned without a store call, and a cached `null` reached first rejects with `TypeError`. Otherwise the store's answer is returned, and only a loaded ship is cached, under its id. The store's reply can fail only with a store error. |
| DbManager.GetShipByMongoId | DBManager.js:193-204 | The cache is never read. A loaded ship is appended to the cache under a fresh array key, so no string-keyed entry appears or changes. A miss or a store error leaves the state unchanged. |
| DbManager.ShipToggle | DBManager.js:115-139 | The toggle's saved documents replace their stored copies by `_id` and unsaved ones do not. The cached copy of each argument, under its own key, shows the in-memory edit in the entry's place. Every other cache entry is untouched, and no key moves in iteration order. |
| DbManager.GetUserIntended | DBManager.js:101-108 | Corrected `getUser`: the same answer as `getUser`, but a store miss for an uncached id leaves the cache unchanged. A cache hit or a failure leaves the state unchanged. |
| Shipping.Toggle | DBManager.js:115-139 | Un-ship removes the first occurrence of the ship from `shipping` and the first occurrence of the user from `shippers`. When the user is not a shipper it removes the last shipper instead. Ship appends the ship to `shipping` and appends the user to `shippers` only if absent, after the user's save. Nothing else changes. The saves and the outcome follow the branch's save order. |
| Shipping.LemmaToggleTwiceRestoresUser | DBManager.js:115-131 | Shipping and then un-shipping gives back the user document exactly, whatever the saves answered. |
| Shipping.LemmaToggleTwiceShippers | DBManager.js:115-138 | When the first toggle's user save is served, toggling twice from "not shipping" takes exactly one copy of the user out of `shippers`. The ship comes back unchanged if and only if the user was not already a shipper, which a creator inserted at creation is. |
| Shipping.LemmaToggleKeepsLinked | DBManager.js:115-138 | When both lists agree on participation and have no repeats, a toggle keeps them so. A ship-branch toggle needs the user's save to succeed for this. |
| Shipping.LemmaToggleKeepsNoDuplicates | DBManager.js:115-138 | Neither `shipping` nor `shippers` gains a repeat from a toggle, whatever the saves answer. |
| Shipping.LemmaToggleTwiceFromLinked | DBManager.js:115-138 | From agreeing lists, with the ship not yet taken and the first toggle's user save served, toggling twice restores both documents. |
| Shipping.LemmaRefusedShipThenUnship | DBManager.js:116-138 | When the first toggle's user save is refused, the in-memory user still lists the ship and the ship is untouched. The next toggle un-ships, whatever its saves answer, and the user comes back as before. A user already among the shippers, such as the creator, loses their first place in `shippers`. Otherwise the last shipper, another user, leaves, and an empty list stays empty. |
| Shipping.LemmaUnshipDropsOtherShipper | DBManager.js:122-125 | Un-shipping a user who is not among the shippers, whatever the saves answer, removes the last shipper, another user, who loses one place in `shippers`. An empty list stays empty. |
| Shipping.LemmaToggleTouchesOnlyUser | DBManager.js:122-138 | Whenever the user is a shipper, or the toggle ships, no other user's count in `shippers` changes. |
| Shipping.ToggleIntended | DBManager.js:122-125 | Corrected toggle: no user other than the toggling one ever gains or loses a place in `shippers`. It agrees with DBManager.js's `ship` whenever the user is a shipper or the toggle ships. |
| Members.ScanShips | DBManager.js:169-181 | The walk returns the first cached ship whose `people` has the query's length and holds every queried member. It rejects on a `null` reached first. It misses only when every earlier value was a non-matching ship. |
| Members.LemmaScanSameMembers | DBManager.js:170-176 | Two queries of equal length with the same members select the same cached ship. |
| Members.LemmaScanPairOrder | DBManager.js:170-176 | `[a, b]` and `[b, a]` select the same cached ship. |
| Members.LemmaRepeatedMemberMatches | DBManager.js:170-176 | The query `[x, x]` matches a cached ship whose people are `[x, y]`. |
| Members.LemmaMatchesIsSameMembers | DBManager.js:170-176 | For a query without repeats, the length-and-inclusion test holds exactly when the ship's people and the query have the same members. |
| Members.ScanShipsIntended | DBManager.js:169-181 | Corrected walk: it returns the first cached ship whose people are the queried members, counted with repeats. It stops at a cached `null` reached first. It misses exactly when every value is a ship with other members. |
| Members.LemmaIntendedFindsRepeatedShip | DBManager.js:169-181 | With ships `[x, y]` then `[x, x]` cached, the query `[x, x]` stops `getShip`'s walk at the first ship, while the corrected walk returns the second. |
| Members.LemmaScanIntended | DBManager.js:169-181 | The corrected walk answers every permutation of a query alike. For a query without repeats it agrees with `getShip`'s walk. |
| Records.LemmaAssignUnique | DBManager.js:55 | `Object.assign` is the only result that takes every carried key and keeps every other field. |
| Records.Assign | DBManager.js:55 | `Object.assign` gives a user that takes every carried key and keeps `_id` and every field the update leaves out. |
| Records.LemmaAssignIdempotent | DBManager.js:55 | Assigning the same update twice equals assigning it once. |
| JsMaps.Has | DBManager.js:100 | `Map.has` holds exactly when the key is among the map's keys. |
| JsMaps.Get | DBManager.js:100 | `Map.get` of a present key gives the value its entry holds, and no entry pairs that key with another value. |
| JsMaps.Set | DBManager.js:43-44 | `Map.set` makes the key map to the value. Every other key keeps its presence and value. |
| JsMaps.LemmaSetOrder | DBManager.js:43-44 | In iteration order, a present key keeps its place and only its value changes; a new key and its value go last. |
| JsMaps.LemmaSetPlaced | DBManager.js:43-44 | After `Map.set`, the key maps to the value, every other key keeps its presence and value, and the key sits where `set` puts it in iteration order. |
| JsArrays.FindIndex | DBManager.js:118 | The result is the first position holding the value, and -1 exactly when the value is absent. |
| JsArrays.LemmaSpliceFindIndex | DBManager.js:117-125 | On an array that holds the value, `splice(findIndex(..), 1)` removes exactly its first occurrence. |
| JsArrays.SpliceOne | DBManager.js:117-125 | `splice(i, 1)` removes position `i`. `splice(-1, 1)` removes the last element, and an empty array stays empty. |
| Hex.Encode | DBManager.js:213 | Each byte becomes two lower-case hex digits, so 16 bytes give a 32-character id. |
| Hex.LemmaDecodeEncode | DBManager.js:213 | Reading the hex rendering back gives the original bytes. |
| Hex.LemmaEncodeInjective | DBManager.js:213 | Distinct byte strings give distinct ids. |
| DocStore.UpdateFirstUser | DBManager.js:49 | The first stored user with the id takes the update, and the others are untouched. With no such user the store is unchanged. |
| DocStore.First | DBManager.js:101 | `findOne` answers `null` exactly when no document matches. Otherwise it answers a matching document at the position `FirstIndex` gives, the earliest one with none matching before it. |
| DocStore.FindUser | DBManager.js:101-112 | `findOne({ id })` finds a user exactly when `exists({ id })` holds, and a found user is stored and carries that id. |
| DocStore.SaveUser | DBManager.js:127-131 | Saving a stored user replaces the copy with its `_id` in place. Afterwards a lookup of that `_id` finds the saved copy, and a lookup of any other `_id` answers as before. Saving a user the store lacks changes nothing. |
| DocStore.SaveShip | DBManager.js:127-136 | Saving a stored ship replaces the copy with its `_id` in place, with the same effect on lookups by `_id`. |
| Properties.LemmaGetUserHitIgnoresStore | DBManager.js:100 | A cache hit's answer does not depend on the store's contents or on whether the store is reachable. |
| Properties.LemmaGetUserTwice | DBManager.js:98-110 | After a successful `getUser`, a second call returns the same answer from the cache and changes nothing. |
| Properties.LemmaGetUserMissPoisonsCache | DBManager.js:98-113 | A lookup of a user the store lacks caches `null`. Afterwards `userExists` answers true where it answered false before, and a following `updateUser` fails with `TypeError`. |
| Properties.LemmaGetUserIntendedKeepsExists | DBManager.js:101-113 | With the corrected `getUser`, `userExists` after a miss still agrees with the store. |
| Properties.LemmaRegisterUserThenLookups | DBManager.js:62-113 | Right after a registration, `userExists` is true and `getUser` returns the new user from the cache, whatever the store answers. |
| Properties.LemmaUpdateUserCache | DBManager.js:47-60 | A failed update leaves the state as it was. An update of an uncached id creates no cache entry. |
| Properties.LemmaUpdateThenGetUser | DBManager.js:47-110 | After an update of a cached user, `getUser` returns the cached user with exactly the carried keys overwritten. |
| Properties.LemmaUpdateUserTwiceCache | DBManager.js:47-60 | Repeating an update of a cached user leaves every cache entry as the first update left it. |
| Properties.LemmaGetUserMissKeepsEarlierHits | DBManager.js:80-110 | A `null` that `getUser` caches for a store miss goes after every cached user, so when the `getUserByMongoId` walk finds a user (a user with the `_id`, with only users of other `_id`s before it), it still finds that user afterwards. |
| Properties.LemmaGetUserByMongoIdTwice | DBManager.js:80-97 | After `getUserByMongoId` loads a user, a second call returns the same user from the cache and changes nothing. This holds with ids compared by value (see Left out). |
| Properties.LemmaGetShipByIdTwice | DBManager.js:155-167 | After a successful `getShip(id)`, a second call returns the same answer from the cache and changes nothing. |
| Properties.LemmaGetShipPairOrder | DBManager.js:168-191 | `getShip([a, b])` and `getShip([b, a])` give the same answer and leave the same state, for the store's one `$all` reply, which does not depend on the query's order. |
| Properties.LemmaRegisterShipThenLookups | DBManager.js:140-216 | A registered ship's id is 32 characters long and was neither cached nor stored before. Right after, `shipExists` and `getShip` answer from the cache. |
| Properties.LemmaMongoIdLookupMissesById | DBManager.js:193-204 | A ship loaded by `_id` is cached only under its `people` array. A later lookup by its id misses the cache and goes back to the store. The entry still joins the walk of member queries. |
| Properties.LemmaShipSaveFailureSplitsStore | DBManager.js:129-138 | If the user's save succeeds and the ship's save fails, the store keeps a user who lists the ship and a ship that does not list the user. |
| Properties.LemmaToggleVisibleInCache | DBManager.js:115-139 | When the caches hold the two argument documents, the next `getUser` and `getShip` return the toggled documents. |

## Left out

- Database connection, schemas and model setup (DBManager.js:1-41): the records in `records.dfy` and the collections in `store.dfy` stand for them.
- Document ids are compared by value. The `===` tests of DBManager.js (lines 83 and 174) compare `ObjectId` objects by reference, so those walks can miss where the model hits. Its `includes` tests on document arrays already compare ids by value.
- The populated branch of the member test (DBManager.js:173-175): with ids compared by value, both branches test membership of the same ids.
- `shipExists` with a structured query (DBManager.js:206-207) passes the query straight to the store, and the `$all` query of `getShip` (DBManager.js:183) has MongoDB semantics. The first is not modelled, and the second's answer is an oracle parameter.
- After `getShip`, `getShipByMongoId` or `getUserByMongoId` resolves with a store `null`, reading `r.id` or `r.people` throws inside the store callback. The model returns `null` with the state unchanged and does not model the escaping exception.
- DbManager.UpdateUser: the `TypeError` from `Object.assign` on a cached `null` is thrown inside the store callback. The promise of `updateUser` then never settles; the model reports a `TypeError` failure instead.
- Saves replace the stored document with the same `_id`. Mongoose change tracking, versioning and not-found errors on save are not modelled.
- Update keys outside the user schema, such as `token`, and the provider's `public_flags` sent to `updateUser`, reach no schema field and have no counterpart in `Patch`.
- DbManager.GenerateShipId: the caller must supply a draw whose id is not reported taken. An endless run of taken ids, where `generateShipId`'s recursion never ends, is not modelled.
- DbManager.GetShipByMongoId: the caller supplies a fresh array reference, standing for the new `people` array the runtime allocates.
- DbManager.ShipToggle: `ship` mutates the very objects the caches hold. The model approximates that identity by the cache key plus the document's `_id`.
- Interleavings between awaits and concurrent requests are not modelled; each operation is one atomic transition.
- The `console.log` at DBManager.js:178.
- The request handlers (`index.js`) and the identity-provider client (`oauth/index.js`) are not part of this model: routing, sessions, HTTP calls, retries and timers.

## Findings

| source | as written | input that shows it | evidently intended | confidence | as-written member | corrected member |
|---|---|---|---|---|---|---|
| DBManager.js:122-125 | `shippers.splice(findIndex(...), 1)` is run whether or not the user is a shipper | un-ship by a user whose `shipping` lists the ship while `shippers` is `[other]`: `findIndex` gives -1 and `other` is removed. A ship whose user save was refused, toggled again, reaches the same case (Shipping.LemmaRefusedShipThenUnship) | remove the user only when present | high; not executed | Shipping.LemmaUnshipDropsOtherShipper | Shipping.ToggleIntended |
| DBManager.js:170-176 | same length, and every queried member is among the ship's people | query `[x, x]` against a cached ship with people `[x, y]` matches; with a `[x, x]` ship cached after it, only the corrected walk reaches that ship (Members.LemmaIntendedFindsRepeatedShip) | the ship's people are the queried members, counted with repeats | high; not executed | Members.LemmaRepeatedMemberMatches | Members.ScanShipsIntended |
| DBManager.js:101-108 | a store miss caches `null` under the id | `getUser(id)` for an id the store lacks, then `userExists(id)`, gives true; a following `updateUser(id, ...)` throws | a miss is not cached, so `userExists` keeps agreeing with the store | medium; not executed | Properties.LemmaGetUserMissPoisonsCache | DbManager.GetUserIntended |

The operations in `db.dfy` follow DBManager.js as written. The corrected members are
defined beside them, each with its intended property proved:
`Shipping.ToggleIntended`, `Members.LemmaScanIntended` and
`Properties.LemmaGetUserIntendedKeepsExists`.

=== FILE: db.dfy ===
/**
 The entity store: the `users` and `ships` caches in front of the document store,
 and the operations that read through them, register documents and toggle
 participation. Every operation is a pure transition from one `State` to the next.
 */
module DbManager {
  import opened Outcomes
  import opened Records
  import opened JsMaps
  import opened DocStore
  import opened Hex
  import opened Members
  import opened Shipping

  /**
   A key of the ship cache. Ship ids are strings; `getShipByMongoId` uses the
   `people` array of the loaded document, and a `Map` compares arrays by identity,
   so each such key is a fresh object, told apart here by a reference number.
   */
  datatype ShipKey = ById(id: string) | ByArray(ref: nat)

  /** Both caches (a cached `null` is `None`) and the store behind them. */
  datatype State = State(
    users: JsMap<string, Option<User>>,
    ships: JsMap<ShipKey, Option<Ship>>,
    store: Store)

  /** The state after an operation and how its promise settled. */
  datatype Step<+T> = Step(state: State, result: Result<T>)

  // ---------------------------------------------------------------- users

  /** `getUser(id)`: a cache hit, or a store read whose answer is cached, `null` included. */
  function GetUser(st: State, id: string, io: Io): (r: Step<Option<User>>)
    ensures Has(st.users, id) ==> r == Step(st, Ok(Get(st.users, id)))
    ensures !Has(st.users, id) && io.Refused? ==> r == Step(st, Err(StoreError))
    ensures !Has(st.users, id) && io.Served? ==>
      && r.result == Ok(FindUser(st.store, id))
      && r.state == st.(users := r.state.users)
      && Has(r.state.users, id) && Get(r.state.users, id) == FindUser(st.store, id)
      && SameExcept(st.users, r.state.users, id)
      && PlacedAsSet(st.users, r.state.users, id)
  {
    if Has(st.users, id) then Step(st, Ok(Get(st.users, id)))
    else if io.Refused? then Step(st, Err(StoreError))
    else
      var found := FindUser(st.store, id);
      LemmaSetPlaced(st.users, id, found);
      Step(st.(users := Set(st.users, id, found)), Ok(found))
  }

  /** `getUser` that leaves a store miss uncached, so no `null` is ever cached by it. */
  function GetUserIntended(st: State, id: string, io: Io): (r: Step<Option<User>>)
    ensures r.result == GetUser(st, id, io).result
    ensures r.result == Ok(None) && !Has(st.users, id) ==> r.state == st
    ensures r.result.Ok? && r.result.value.Some? ==> r.state == GetUser(st, id, io).state
    ensures r.result.Err? || Has(st.users, id) ==> r.state == st
  {
    var r := GetUser(st, id, io);
    if r.result == Ok(None) && !Has(st.users, id) then Step(st, r.result) else r
  }

  /** `userExists(id)`: a cached key, `null` value or not, answers true without asking the store. */
  function UserExists(st: State, id: string, io: Io): (r: Result<bool>)
    ensures Has(st.users, id) ==> r == Ok(true)
    ensures !Has(st.users, id) ==> (r.Ok? <==> io.Served?)
    ensures !Has(st.users, id) && r.Ok? ==> (r.value <==> HasUser(st.store, id))
    ensures r.Err? ==> r.error == StoreError
  {
    if Has(st.users, id) then Ok(true)
    else if io.Refused? then Err(StoreError)
    else Ok(HasUser(st.store, id))
  }

  /**
   `registerUser(data)`: builds the document (fresh `_id` `oid`, join time `now`),
   inserts it, and caches it under `data.id`.
   */
  function RegisterUser(st: State, data: Profile, oid: ObjectId, now: int, io: Io): (r: Step<User>)
    requires FindUserByOid(st.store, oid).None?
    ensures io.Refused? ==> r == Step(st, Err(StoreError))
    ensures io.Served? ==> r.result.Ok?
    ensures r.result.Ok? ==>
      var u := r.result.value;
      && u.oid == oid && u.id == data.id && u.username == data.username
      && u.avatar == data.avatar && u.discriminator == data.discriminator
      && u.publicFlags == data.public_flags && u.locale == data.locale
      && u.premiumType == data.premium_type
      && u.shipping == [] && u.joinedAt == now
      && r.state.store == st.store.(users := st.store.users + [u])
      && r.state.ships == st.ships
      && Has(r.state.users, data.id) && Get(r.state.users, data.id) == Some(u)
      && SameExcept(st.users, r.state.users, data.id)
      && PlacedAsSet(st.users, r.state.users, data.id)
  {
    if io.Refused? then Step(st, Err(StoreError))
    else
      var u := NewUser(data, oid, now);
      LemmaSetPlaced(st.users, data.id, Some(u));
      Step(st.(users := Set(st.users, data.id, Some(u)),
               store := st.store.(users := st.store.users + [u])),
           Ok(u))
  }

  /**
   `updateUser(id, data)`: the store applies the update to the first user with
   that id and answers with the document as it was before. Once the store has
   answered, a cached copy takes the same keys; a cached `null` makes
   `Object.assign` throw.
   */
  function UpdateUser(st: State, id: string, p: Patch, io: Io): (r: Step<Option<User>>)
    ensures io.Refused? ==> r == Step(st, Err(StoreError))
    ensures io.Served? ==>
      && r.state.store == UpdateFirstUser(st.store, id, p)
      && r.state.ships == st.ships
    ensures io.Served? && !Has(st.users, id) ==>
      r.state.users == st.users && r.result == Ok(FindUser(st.store, id))
    ensures io.Served? && Has(st.users, id) && Get(st.users, id).Some? ==>
      var before := Get(st.users, id).value;
      && r.result == Ok(FindUser(st.store, id))
      && Has(r.state.users, id) && Get(r.state.users, id).Some?
      && Takes(Get(r.state.users, id).value, p)
      && Keeps(before, Get(r.state.users, id).value, p)
      && SameExcept(st.users, r.state.users, id)
      && PlacedAsSet(st.users, r.state.users, id)
    ensures io.Served? && Has(st.users, id) && Get(st.users, id).None? ==>
      r.state.users == st.users && r.result == Err(TypeError)
  {
    if io.Refused? then Step(st, Err(StoreError))
    else
      var prior := FindUser(st.store, id);
      var st' := st.(store := UpdateFirstUser(st.store, id, p));
      if !Has(st.users, id) then Step(st', Ok(prior))
      else match Get(st.users, id)
        case None => Step(st', Err(TypeError))
        case Some(cached) =>
          LemmaSetPlaced(st.users, id, Some(Assign(cached, p)));
          Step(st'.(users := Set(st.users, id, Some(Assign(cached, p)))), Ok(prior))
  }

  /** Every cached value before position `n` is a user with another `_id`, so none stops the walk. */
  ghost predicate UsersPassedOver(vals: seq<Option<User>>, oid: ObjectId, n: nat)
    requires n <= |vals|
  {
    forall j :: 0 <= j < n ==> vals[j].Some? && vals[j].value.oid != oid
  }

  /** The `for (const user of users.values())` walk of `getUserByMongoId`. */
  function ScanUsers(vals: seq<Option<User>>, oid: ObjectId): (r: Scan<User>)
    ensures r.Miss? <==> UsersPassedOver(vals, oid, |vals|)
    ensures r.Hit? ==>
      exists i :: 0 <= i < |vals| && vals[i] == Some(r.found) && r.found.oid == oid
                  && UsersPassedOver(vals, oid, i)
    ensures r.NullEntry? ==>
      exists i :: 0 <= i < |vals| && vals[i].None? && UsersPassedOver(vals, oid, i)
  {
    if vals == [] then Miss
    else match vals[0]
      case None => NullEntry
      case Some(u) =>
        if u.oid == oid then Hit(u)
        else
          var r := ScanUsers(vals[1..], oid);
          assert forall i :: 0 < i <= |vals| && UsersPassedOver(vals[1..], oid, i - 1) ==>
                               UsersPassedOver(vals, oid, i);
          r
  }

  /** The walk stops at the first user with the `_id` when nothing before it stops it. */
  lemma {:induction false} LemmaScanUsersHitAt(vals: seq<Option<User>>, oid: ObjectId, i: nat)
    requires i < |vals| && vals[i].Some? && vals[i].value.oid == oid
    requires forall j :: 0 <= j < i ==> vals[j].Some? && vals[j].value.oid != oid
    ensures ScanUsers(vals, oid) == Hit(vals[i].value)
  {
    if i > 0 {
      LemmaScanUsersHitAt(vals[1..], oid, i - 1);
    }
  }

  /** A value added after the walk's hit does not change it. */
  lemma {:induction false} LemmaScanUsersHitAppend(vals: seq<Option<User>>, oid: ObjectId, x: Option<User>)
    requires ScanUsers(vals, oid).Hit?
    ensures ScanUsers(vals + [x], oid) == ScanUsers(vals, oid)
  {
    if vals[0].Some? && vals[0].value.oid != oid {
      assert (vals + [x])[1..] == vals[1..] + [x];
      LemmaScanUsersHitAppend(vals[1..], oid, x);
    }
  }

  /**
   `getUserByMongoId(oid)`: a walk over the cached users, then a store read. A
   loaded user is cached under its own id; a `null` answer is returned and, since
   reading its `id` throws after the promise settled, not cached.
   */
  function GetUserByMongoId(st: State, oid: ObjectId, io: Io): (r: Step<Option<User>>)
    ensures ScanUsers(Values(st.users), oid).Hit? ==>
      r == Step(st, Ok(Some(ScanUsers(Values(st.users), oid).found)))
    ensures ScanUsers(Values(st.users), oid).NullEntry? ==> r == Step(st, Err(TypeError))
    ensures ScanUsers(Values(st.users), oid).Miss? && io.Refused? ==> r == Step(st, Err(StoreError))
    ensures ScanUsers(Values(st.users), oid).Miss? && io.Served? ==>
      && r.result == Ok(FindUserByOid(st.store, oid))
      && (FindUserByOid(st.store, oid).None? ==> r.state == st)
      && (FindUserByOid(st.store, oid).Some? ==>
            var u := FindUserByOid(st.store, oid).value;
            r.state == st.(users := Set(st.users, u.id, Some(u))))
  {
    match ScanUsers(Values(st.users), oid)
    case Hit(u) => Step(st, Ok(Some(u)))
    case NullEntry => Step(st, Err(TypeError))
    case Miss =>
      if io.Refused? then Step(st, Err(StoreError))
      else match FindUserByOid(st.store, oid)
        case None => Step(st, Ok(None))
        case Some(u) => Step(st.(users := Set(st.users, u.id, Some(u))), Ok(Some(u)))
  }

  // ---------------------------------------------------------------- ships

  /** `shipExists(id)` for a string id: a cached key answers true without asking the store. */
  function ShipExistsById(st: State, id: string, io: Io): (r: Result<bool>)
    ensures Has(st.ships, ById(id)) ==> r == Ok(true)
    ensures !Has(st.ships, ById(id)) ==> (r.Ok? <==> io.Served?)
    ensures !Has(st.ships, ById(id)) && r.Ok? ==> (r.value <==> HasShip(st.store, id))
    ensures r.Err? ==> r.error == StoreError
  {
    if Has(st.ships, ById(id)) then Ok(true)
    else if io.Refused? then Err(StoreError)
    else Ok(HasShip(st.store, id))
  }

  /** One draw of 16 random bytes, with the store's answer to the existence check on it. */
  datatype Draw = Draw(bytes: seq<byte>, io: Io)

  /** `shipExists` reports the draw's id as taken, so `generateShipId` draws again. */
  predicate Taken(st: State, d: Draw) {
    ShipExistsById(st, Encode(d.bytes), d.io) == Ok(true)
  }

  /**
   The retries stop at draw `k`: every earlier id was taken, and `r` is draw `k`'s
   id when the store reports it fresh, or the failure of its existence check.
   */
  ghost predicate StopsAt(st: State, draws: seq<Draw>, k: nat, r: Result<string>)
    requires k < |draws|
  {
    && (forall j :: 0 <= j < k ==> Taken(st, draws[j]))
    && match ShipExistsById(st, Encode(draws[k].bytes), draws[k].io)
       case Ok(taken) => !taken && r == Ok(Encode(draws[k].bytes))
       case Err(e) => r == Err(e)
  }

  lemma LemmaUntakenDrawLater(st: State, draws: seq<Draw>)
    requires |draws| > 0 && Taken(st, draws[0])
    requires exists k :: 0 <= k < |draws| && !Taken(st, draws[k])
    ensures exists k :: 0 <= k < |draws[1..]| && !Taken(st, draws[1..][k])
  {
    var k :| 0 <= k < |draws| && !Taken(st, draws[k]);
    assert k > 0 && draws[1..][k - 1] == draws[k];
  }

  lemma LemmaStopsLater(st: State, draws: seq<Draw>, r: Result<string>)
    requires |draws| > 0 && Taken(st, draws[0])
    requires exists k :: 0 <= k < |draws| - 1 && StopsAt(st, draws[1..], k, r)
    ensures exists k :: 0 <= k < |draws| && StopsAt(st, draws, k, r)
  {
    var k :| 0 <= k < |draws| - 1 && StopsAt(st, draws[1..], k, r);
    assert forall j :: 0 <= j < k ==> draws[1..][j] == draws[j + 1];
    assert StopsAt(st, draws, k + 1, r);
  }

  /**
   `generateShipId()`: renders each draw as hex and retries while `shipExists`
   reports the id as taken. The draws stand for `crypto.randomBytes`; the
   recursion ends only at a draw not reported taken, which the caller must supply.
   */
  function GenerateShipId(st: State, draws: seq<Draw>): (r: Result<string>)
    requires forall i :: 0 <= i < |draws| ==> |draws[i].bytes| == 16
    requires exists k :: 0 <= k < |draws| && !Taken(st, draws[k])
    ensures exists k :: 0 <= k < |draws| && StopsAt(st, draws, k, r)
    ensures r.Ok? ==> |r.value| == 32 && forall i :: 0 <= i < 32 ==> IsDigit(r.value[i])
    ensures r.Err? ==> r.error == StoreError
  {
    var id := Encode(draws[0].bytes);
    match ShipExistsById(st, id, draws[0].io)
    case Err(e) =>
      assert StopsAt(st, draws, 0, Err(e));
      Err(e)
    case Ok(taken) =>
      if !taken then
        assert StopsAt(st, draws, 0, Ok(id));
        Ok(id)
      else
        LemmaUntakenDrawLater(st, draws);
        var r := GenerateShipId(st, draws[1..]);
        LemmaStopsLater(st, draws, r);
        r
  }

  /**
   A generated id is one of the draws, `shipExists` reported it false, and so it
   is neither a string key of the ship cache nor the id of a stored ship.
   */
  lemma LemmaGeneratedIdFresh(st: State, draws: seq<Draw>, id: string)
    requires forall i :: 0 <= i < |draws| ==> |draws[i].bytes| == 16
    requires exists k :: 0 <= k < |draws| && !Taken(st, draws[k])
    requires GenerateShipId(st, draws) == Ok(id)
    ensures exists k :: 0 <= k < |draws| && id == Encode(draws[k].bytes)
                        && ShipExistsById(st, id, draws[k].io) == Ok(false)
    ensures !Has(st.ships, ById(id)) && !HasShip(st.store, id)
  {
    var k :| 0 <= k < |draws| && StopsAt(st, draws, k, Ok(id));
  }

  /**
   `registerShip(data)`: a fresh id from `generateShipId`, then the new document
   (`_id` `oid`, creation time `now`) is inserted and cached under that id.
   */
  function RegisterShip(st: State, data: ShipData, draws: seq<Draw>, oid: ObjectId, now: int, io: Io): (r: Step<Ship>)
    requires forall i :: 0 <= i < |draws| ==> |draws[i].bytes| == 16
    requires exists k :: 0 <= k < |draws| && !Taken(st, draws[k])
    requires FindShipByOid(st.store, oid).None?
    ensures r.result.Err? ==> r.state == st && r.result.error == StoreError
    ensures GenerateShipId(st, draws).Err? || io.Refused? ==> r.result.Err?
    ensures GenerateShipId(st, draws).Ok? && io.Served? ==> r.result.Ok?
    ensures r.result.Ok? ==>
      var s := r.result.value;
      && GenerateShipId(st, draws) == Ok(s.id)
      && !Has(st.ships, ById(s.id)) && !HasShip(st.store, s.id)
      && s.oid == oid && s.people == data.people && s.shippers == data.shippers
      && s.createdBy == data.createdBy && s.createdAt == now
      && r.state.store == st.store.(ships := st.store.ships + [s])
      && r.state.users == st.users
      && Has(r.state.ships, ById(s.id)) && Get(r.state.ships, ById(s.id)) == Some(s)
      && SameExcept(st.ships, r.state.ships, ById(s.id))
      && PlacedAsSet(st.ships, r.state.ships, ById(s.id))
  {
    match GenerateShipId(st, draws)
    case Err(e) => Step(st, Err(e))
    case Ok(id) =>
      if io.Refused? then Step(st, Err(StoreError))
      else
        LemmaGeneratedIdFresh(st, draws, id);
        var s := NewShip(data, oid, id, now);
        Step(InsertShip(st, s), Ok(s))
  }

  /** `ships.insert(s)` followed by `shipCache.set(s.id, s)`. */
  function InsertShip(st: State, s: Ship): (r: State)
    ensures r.store == st.store.(ships := st.store.ships + [s])
    ensures r.users == st.users
    ensures Has(r.ships, ById(s.id)) && Get(r.ships, ById(s.id)) == Some(s)
    ensures SameExcept(st.ships, r.ships, ById(s.id))
    ensures PlacedAsSet(st.ships, r.ships, ById(s.id))
  {
    LemmaSetPlaced(st.ships, ById(s.id), Some(s));
    st.(ships := Set(st.ships, ById(s.id), Some(s)),
        store := st.store.(ships := st.store.ships + [s]))
  }

  /** `getShip(id)` for a string id: a cache hit, or a store read whose answer is cached, `null` included. */
  function GetShipById(st: State, id: string, io: Io): (r: Step<Option<Ship>>)
    ensures Has(st.ships, ById(id)) ==> r == Step(st, Ok(Get(st.ships, ById(id))))
    ensures !Has(st.ships, ById(id)) && io.Refused? ==> r == Step(st, Err(StoreError))
    ensures !Has(st.ships, ById(id)) && io.Served? ==>
      && r.result == Ok(FindShip(st.store, id))
      && r.state == st.(ships := r.state.ships)
      && Has(r.state.ships, ById(id)) && Get(r.state.ships, ById(id)) == FindShip(st.store, id)
      && SameExcept(st.ships, r.state.ships, ById(id))
      && PlacedAsSet(st.ships, r.state.ships, ById(id))
  {
    if Has(st.ships, ById(id)) then Step(st, Ok(Get(st.ships, ById(id))))
    else if io.Refused? then Step(st, Err(StoreError))
    else
      var found := FindShip(st.store, id);
      LemmaSetPlaced(st.ships, ById(id), found);
      Step(st.(ships := Set(st.ships, ById(id), found)), Ok(found))
  }

  /**
   `getShip(people)` for a member list: the walk over the cached ships, then the
   store's `$all` query, whose answer `reply` is an oracle. A loaded ship is
   cached under its id; a `null` answer is returned and not cached.
   */
  function GetShipByMembers(st: State, people: seq<ObjectId>, reply: Result<Option<Ship>>): (r: Step<Option<Ship>>)
    requires reply.Err? ==> reply.error == StoreError
    ensures ScanShips(Values(st.ships), people).Hit? ==>
      r == Step(st, Ok(Some(ScanShips(Values(st.ships), people).found)))
    ensures ScanShips(Values(st.ships), people).NullEntry? ==> r == Step(st, Err(TypeError))
    ensures ScanShips(Values(st.ships), people).Miss? ==>
      && r.result == reply
      && (reply.Ok? && reply.value.Some? ==>
            var s := reply.value.value;
            r.state == st.(ships := Set(st.ships, ById(s.id), Some(s))))
      && (reply.Err? || reply.value.None? ==> r.state == st)
  {
    match ScanShips(Values(st.ships), people)
    case Hit(s) => Step(st, Ok(Some(s)))
    case NullEntry => Step(st, Err(TypeError))
    case Miss =>
      match reply
      case Err(e) => Step(st, Err(e))
      case Ok(None) => Step(st, Ok(None))
      case Ok(Some(s)) => Step(st.(ships := Set(st.ships, ById(s.id), Some(s))), reply)
  }

  /**
   `getShipByMongoId(oid)`: always a store read, never a cache read. A loaded ship
   is cached under the fresh array object `ref` (its `people`), not under its id.
   */
  function GetShipByMongoId(st: State, oid: ObjectId, ref: nat, io: Io): (r: Step<Option<Ship>>)
    requires !Has(st.ships, ByArray(ref))
    ensures io.Refused? ==> r == Step(st, Err(StoreError))
    ensures io.Served? ==> r.result == Ok(FindShipByOid(st.store, oid))
    ensures r.state.users == st.users && r.state.store == st.store
    ensures forall id :: (Has(r.state.ships, ById(id)) <==> Has(st.ships, ById(id)))
    ensures forall id :: Has(st.ships, ById(id)) ==> Get(r.state.ships, ById(id)) == Get(st.ships, ById(id))
    ensures io.Served? && FindShipByOid(st.store, oid).Some? ==>
      Values(r.state.ships) == Values(st.ships) + [FindShipByOid(st.store, oid)]
    ensures io.Refused? || FindShipByOid(st.store, oid).None? ==> r.state == st
  {
    if io.Refused? then Step(st, Err(StoreError))
    else match FindShipByOid(st.store, oid)
      case None => Step(st, Ok(None))
      case Some(s) =>
        LemmaSetOrder(st.ships, ByArray(ref), Some(s));
        Step(st.(ships := Set(st.ships, ByArray(ref), Some(s))), Ok(Some(s)))
  }

  // ---------------------------------------------------------------- toggle

  /** The state after `ship(user, ship)` and what the toggle did. */
  datatype ToggleStep = ToggleStep(state: State, toggled: Toggled)

  /**
   A cached copy under `key` that is the document `before` (same `_id`) becomes
   `after`: callers hand `ship` the very objects the caches hold.
   */
  function WriteBack<K(==,!new), D>(m: JsMap<K, Option<D>>, key: K, same: D -> bool, after: D): (r: JsMap<K, Option<D>>)
    ensures SameExcept(m, r, key)
    ensures Keys(r) == Keys(m)
    ensures Has(m, key) && Get(m, key).Some? && same(Get(m, key).value) ==>
      Has(r, key) && Get(r, key) == Some(after) && PlacedAsSet(m, r, key)
    ensures !(Has(m, key) && Get(m, key).Some? && same(Get(m, key).value)) ==> r == m
  {
    if Has(m, key) && Get(m, key).Some? && same(Get(m, key).value) then
      LemmaSetPlaced(m, key, Some(after));
      Set(m, key, Some(after))
    else m
  }

  /**
   `ship(user, ship)` on the state: the documents that were saved reach the store,
   and the cached copies of the two arguments carry the in-memory edits.
   */
  function ShipToggle(st: State, u: User, s: Ship, first: Io, second: Io): (r: ToggleStep)
    ensures r.toggled == Toggle(u, s, first, second)
    ensures r.state.store.users == (if r.toggled.userSaved then SaveUser(st.store, r.toggled.user).users
                                    else st.store.users)
    ensures r.state.store.ships == (if r.toggled.shipSaved then SaveShip(st.store, r.toggled.ship).ships
                                    else st.store.ships)
    ensures Has(st.users, u.id) && Get(st.users, u.id) == Some(u) ==>
      Has(r.state.users, u.id) && Get(r.state.users, u.id) == Some(r.toggled.user)
      && PlacedAsSet(st.users, r.state.users, u.id)
    ensures Has(st.ships, ById(s.id)) && Get(st.ships, ById(s.id)) == Some(s) ==>
      Has(r.state.ships, ById(s.id)) && Get(r.state.ships, ById(s.id)) == Some(r.toggled.ship)
      && PlacedAsSet(st.ships, r.state.ships, ById(s.id))
    // no entry moves: the caches keep their keys in order
    ensures Keys(r.state.users) == Keys(st.users) && Keys(r.state.ships) == Keys(st.ships)
    ensures SameExcept(st.users, r.state.users, u.id)
    ensures SameExcept(st.ships, r.state.ships, ById(s.id))
  {
    var t := Toggle(u, s, first, second);
    var store := if t.shipSaved then SaveShip(st.store, t.ship) else st.store;
    var store := if t.userSaved then SaveUser(store, t.user) else store;
    var users := WriteBack(st.users, u.id, (x: User) => x.oid == u.oid, t.user);
    var ships := WriteBack(st.ships, ById(s.id), (x: Ship) => x.oid == s.oid, t.ship);
    ToggleStep(State(users, ships, store), t)
  }
}

=== FILE: hex.dfy ===
/** Lower-case hexadecimal rendering of random bytes, as `Buffer.toString("hex")` does it. */
module Hex {
  import opened Outcomes

  newtype byte = x: int | 0 <= x < 256

  /** A lower-case hexadecimal digit: `0`-`9` or `a`-`f`. */
  predicate IsDigit(c: char) {
    '0' <= c <= '9' || 'a' <= c <= 'f'
  }

  /** The digit of a nibble value. */
  function Digit(n: nat): (c: char)
    requires n < 16
    ensures IsDigit(c)
  {
    if n < 10 then ('0' as int + n) as char else ('a' as int + n - 10) as char
  }

  /** The value of one hexadecimal digit. */
  function DigitValue(c: char): (n: nat)
    requires IsDigit(c)
    ensures n < 16 && Digit(n) == c
  {
    if '0' <= c <= '9' then (c - '0') as nat else (c - 'a') as nat + 10
  }

  /** Each digit reads back as its own nibble value. */
  lemma LemmaDigitValue(n: nat)
    requires n < 16
    ensures DigitValue(Digit(n)) == n
  {
  }

  /** Two digits per byte, high nibble first. */
  function Encode(b: seq<byte>): (h: string)
    ensures |h| == 2 * |b|
    ensures forall i :: 0 <= i < |h| ==> IsDigit(h[i])
  {
    if b == [] then []
    else [Digit(b[0] as int / 16), Digit(b[0] as int % 16)] + Encode(b[1..])
  }

  /** Reads back an even-length digit string; anything else is `None`. */
  function Decode(h: string): (r: Option<seq<byte>>)
    ensures r.Some? ==> 2 * |r.value| == |h|
  {
    if h == [] then Some([])
    else if |h| < 2 || !IsDigit(h[0]) || !IsDigit(h[1]) then None
    else match Decode(h[2..])
      case None => None
      case Some(rest) => Some([(DigitValue(h[0]) * 16 + DigitValue(h[1])) as byte] + rest)
  }

  /** One byte's two digits read back as that byte. */
  lemma LemmaByteDigits(x: byte)
    ensures IsDigit(Digit(x as int / 16)) && IsDigit(Digit(x as int % 16))
    ensures (DigitValue(Digit(x as int / 16)) * 16 + DigitValue(Digit(x as int % 16))) as byte == x
  {
    LemmaDigitValue(x as int / 16);
    LemmaDigitValue(x as int % 16);
  }

  /** Decoding a string that starts with two digits reads them as one byte. */
  lemma LemmaDecodeCons(hi: char, lo: char, rest: string)
    requires IsDigit(hi) && IsDigit(lo) && Decode(rest).Some?
    ensures Decode([hi, lo] + rest) == Some([(DigitValue(hi) * 16 + DigitValue(lo)) as byte] + Decode(rest).value)
  {
    assert ([hi, lo] + rest)[2..] == rest;
  }

  /** Decoding undoes encoding. */
  lemma {:induction false} LemmaDecodeEncode(b: seq<byte>)
    ensures Decode(Encode(b)) == Some(b)
  {
    if b != [] {
      LemmaDecodeEncode(b[1..]);
      LemmaByteDigits(b[0]);
      LemmaDecodeCons(Digit(b[0] as int / 16), Digit(b[0] as int % 16), Encode(b[1..]));
      assert [b[0]] + b[1..] == b;
    }
  }

  /** Distinct byte strings render as distinct ids. */
  lemma LemmaEncodeInjective(a: seq<byte>, b: seq<byte>)
    requires Encode(a) == Encode(b)
    ensures a == b
  {
    LemmaDecodeEncode(a);
    LemmaDecodeEncode(b);
  }
}

=== FILE: jsarrays.dfy ===
/** The two JavaScript array primitives the pairing toggle is built from. */
module JsArrays {
  import opened Seqs

  /**
   `array.findIndex(e => e.equals(x))`: the first position holding `x`,
   or -1 when no element equals `x`.
   */
  function FindIndex<T(==)>(s: seq<T>, x: T): (i: int)
    ensures -1 <= i < |s|
    ensures i == -1 <==> x !in s
    ensures 0 <= i ==> s[i] == x && x !in s[..i]
  {
    if s == [] then -1
    else if s[0] == x then 0
    else
      var j := FindIndex(s[1..], x);
      if j == -1 then -1 else 1 + j
  }

  /**
   What is left of `array` after `array.splice(start, 1)`. A negative `start`
   counts back from the end (clamped at 0), a start past the end removes nothing.
   */
  function SpliceOne<T>(s: seq<T>, start: int): (r: seq<T>)
    ensures 0 <= start < |s| ==> r == s[..start] + s[start + 1..]
    ensures start == -1 && |s| > 0 ==> r == s[..|s| - 1]
    ensures s == [] ==> r == []
  {
    var from := if start < 0 then (if |s| + start < 0 then 0 else |s| + start)
                else (if start < |s| then start else |s|);
    if from < |s| then s[..from] + s[from + 1..] else s
  }

  /** `splice(findIndex(x), 1)` on an array holding `x` removes its first `x`. */
  lemma {:induction false} LemmaSpliceFindIndex<T>(s: seq<T>, x: T)
    ensures x in s ==> SpliceOne(s, FindIndex(s, x)) == RemoveFirst(s, x)
  {
    if s != [] && s[0] != x && x in s {
      var t := s[1..];
      assert x in t;
      var j := FindIndex(t, x);
      LemmaSpliceFindIndex(t, x);
      assert FindIndex(s, x) == j + 1;
      assert s[..j + 1] == [s[0]] + t[..j];
      assert s[j + 2..] == t[j + 1..];
    }
  }
}

=== FILE: jsmaps.dfy ===
/**
 A model of a JavaScript `Map`: a list of key/value entries in insertion order with
 no key twice. `set` on a present key overwrites the value in place; on an absent key
 it appends, so `values()` yields entries in first-insertion order.
 */
module JsMaps {

  ghost predicate UniqueKeys<K, V>(e: seq<(K, V)>) {
    forall i, j :: 0 <= i < j < |e| ==> e[i].0 != e[j].0
  }

  type JsMap<K, V> = e: seq<(K, V)> | UniqueKeys(e) witness []

  /** The keys, in iteration order. */
  function Keys<K, V>(m: seq<(K, V)>): (ks: seq<K>)
    ensures |ks| == |m|
    ensures forall i :: 0 <= i < |m| ==> ks[i] == m[i].0
  {
    if m == [] then [] else [m[0].0] + Keys(m[1..])
  }

  /** `map.values()`, in iteration order. */
  function Values<K, V>(m: seq<(K, V)>): (vs: seq<V>)
    ensures |vs| == |m|
    ensures forall i :: 0 <= i < |m| ==> vs[i] == m[i].1
  {
    if m == [] then [] else [m[0].1] + Values(m[1..])
  }

  /** The position of key `k`, or `|m|` when it is absent. */
  function Find<K(==), V>(m: seq<(K, V)>, k: K): (i: nat)
    ensures i <= |m|
    ensures i < |m| ==> m[i].0 == k
    ensures forall j :: 0 <= j < i ==> m[j].0 != k
  {
    if m == [] then 0
    else if m[0].0 == k then 0
    else 1 + Find(m[1..], k)
  }

  /** `map.has(k)`. */
  predicate Has<K(==), V>(m: JsMap<K, V>, k: K)
    ensures Has(m, k) <==> k in Keys(m)
  {
    Find(m, k) < |m|
  }

  /** `map.get(k)` for a present key. */
  function Get<K(==), V>(m: JsMap<K, V>, k: K): (v: V)
    requires Has(m, k)
    ensures (k, v) in m
    ensures forall i :: 0 <= i < |m| && m[i].0 == k ==> m[i].1 == v
  {
    m[Find(m, k)].1
  }

  /** Positions of a key depend only on where that key occurs. */
  lemma LemmaFindSameKeys<K, V>(a: seq<(K, V)>, b: seq<(K, V)>, k: K)
    requires |a| == |b|
    requires forall j :: 0 <= j < |a| ==> (a[j].0 == k <==> b[j].0 == k)
    ensures Find(a, k) == Find(b, k)
  {
    if a != [] {
      LemmaFindSameKeys(a[1..], b[1..], k);
    }
  }

  /** Appending an entry for another key leaves a key's position alone. */
  lemma LemmaFindAppend<K, V>(m: seq<(K, V)>, e: (K, V), k: K)
    requires e.0 != k
    ensures Find(m + [e], k) == (if Find(m, k) < |m| then Find(m, k) else |m| + 1)
  {
    if m != [] {
      assert (m + [e])[1..] == m[1..] + [e];
      LemmaFindAppend(m[1..], e, k);
    }
  }

  /** Overwriting the entry of a present key keeps every other key's lookup. */
  lemma LemmaOverwrite<K, V>(m: JsMap<K, V>, k: K, v: V)
    requires Has(m, k)
    ensures UniqueKeys(m[Find(m, k) := (k, v)])
    ensures var r: JsMap<K, V> := m[Find(m, k) := (k, v)];
            && Has(r, k) && Get(r, k) == v
            && (forall k' :: k' != k ==> Has(r, k') == Has(m, k') && (Has(m, k') ==> Get(r, k') == Get(m, k')))
  {
    var i := Find(m, k);
    assert forall j :: 0 <= j < |m| && j != i ==> m[j].0 != k;
    assert UniqueKeys(m[i := (k, v)]);
    var r: JsMap<K, V> := m[i := (k, v)];
    LemmaFindSameKeys(r, m, k);
    forall k' | k' != k
      ensures Has(r, k') == Has(m, k') && (Has(m, k') ==> Get(r, k') == Get(m, k'))
    {
      LemmaFindSameKeys(r, m, k');
    }
  }

  /** Overwriting an entry in place keeps the key order and changes one value. */
  lemma LemmaOverwriteLists<K, V>(m: seq<(K, V)>, i: nat, k: K, v: V)
    requires i < |m| && m[i].0 == k
    ensures Keys(m[i := (k, v)]) == Keys(m)
    ensures Values(m[i := (k, v)]) == Values(m)[i := v]
  {
  }

  /** Appending an entry for an absent key makes it present and keeps every other lookup. */
  lemma LemmaAppendKey<K, V>(m: JsMap<K, V>, k: K, v: V)
    requires !Has(m, k)
    ensures UniqueKeys(m + [(k, v)])
    ensures var r: JsMap<K, V> := m + [(k, v)];
            && Has(r, k) && Get(r, k) == v
            && (forall k' :: k' != k ==> Has(r, k') == Has(m, k') && (Has(m, k') ==> Get(r, k') == Get(m, k')))
  {
    assert forall j :: 0 <= j < |m| ==> m[j].0 != k;
    assert UniqueKeys(m + [(k, v)]);
    var r: JsMap<K, V> := m + [(k, v)];
    assert r[|m|].0 == k;
    forall k' | k' != k
      ensures Has(r, k') == Has(m, k') && (Has(m, k') ==> Get(r, k') == Get(m, k'))
    {
      LemmaFindAppend(m, (k, v), k');
    }
  }

  /** An appended entry goes last in both the key and the value order. */
  lemma LemmaAppendLists<K, V>(m: seq<(K, V)>, k: K, v: V)
    ensures Keys(m + [(k, v)]) == Keys(m) + [k]
    ensures Values(m + [(k, v)]) == Values(m) + [v]
  {
  }

  /** `map.set(k, v)`. */
  function Set<K(==,!new), V>(m: JsMap<K, V>, k: K, v: V): (r: JsMap<K, V>)
    ensures Has(r, k) && Get(r, k) == v
    ensures forall k' :: k' != k ==> (Has(r, k') <==> Has(m, k'))
    ensures forall k' :: k' != k && Has(m, k') ==> Get(r, k') == Get(m, k')
  {
    if Has(m, k) then
      LemmaOverwrite(m, k, v);
      m[Find(m, k) := (k, v)]
    else
      LemmaAppendKey(m, k, v);
      m + [(k, v)]
  }

  /**
   Iteration order after `map.set(k, v)`: a present key keeps its place and only
   its value changes; a new key and its value go last.
   */
  lemma LemmaSetOrder<K(!new), V>(m: JsMap<K, V>, k: K, v: V)
    ensures Has(m, k) ==> Keys(Set(m, k, v)) == Keys(m)
    ensures !Has(m, k) ==> Keys(Set(m, k, v)) == Keys(m) + [k]
    ensures Has(m, k) ==> Values(Set(m, k, v)) == Values(m)[Find(m, k) := v]
    ensures !Has(m, k) ==> Values(Set(m, k, v)) == Values(m) + [v]
    ensures PlacedAsSet(m, Set(m, k, v), k)
  {
    if Has(m, k) {
      LemmaOverwriteLists(m, Find(m, k), k, v);
    } else {
      LemmaAppendLists(m, k, v);
    }
  }

  /**
   `b` holds key `k` where `map.set(k, ...)` on `a` puts it: in the place `k` had
   in `a`, with only that value changed, or last when `a` lacked it.
   */
  ghost predicate PlacedAsSet<K(!new), V>(a: JsMap<K, V>, b: JsMap<K, V>, k: K) {
    && Has(b, k)
    && (Has(a, k) ==> Keys(b) == Keys(a) && Values(b) == Values(a)[Find(a, k) := Get(b, k)])
    && (!Has(a, k) ==> Keys(b) == Keys(a) + [k] && Values(b) == Values(a) + [Get(b, k)])
  }

  /** Everything `map.set(k, v)` promises, in one place for callers. */
  lemma LemmaSetPlaced<K(!new), V>(m: JsMap<K, V>, k: K, v: V)
    ensures Has(Set(m, k, v), k) && Get(Set(m, k, v), k) == v
    ensures SameExcept(m, Set(m, k, v), k)
    ensures PlacedAsSet(m, Set(m, k, v), k)
  {
    LemmaSetOrder(m, k, v);
  }

  /** `a` and `b` agree on every key other than `k`. */
  ghost predicate SameExcept<K(!new), V>(a: JsMap<K, V>, b: JsMap<K, V>, k: K) {
    forall k' :: k' != k ==> (Has(a, k') <==> Has(b, k')) && (Has(a, k') ==> Get(a, k') == Get(b, k'))
  }
}

=== FILE: members.dfy ===
/** The cache test `getShip` applies to a member list before it asks the store. */
module Members {
  import opened Outcomes
  import opened Records
  import opened Seqs

  /**
   A cached ship answers a member query when its `people` has the query's length
   and holds every queried member.
   */
  predicate Matches(ship: Ship, people: seq<ObjectId>) {
    |ship.people| == |people| && forall p :: p in people ==> p in ship.people
  }

  /** No cached value before position `n` stops the walk. */
  ghost predicate PassedOver(vals: seq<Option<Ship>>, people: seq<ObjectId>, n: nat)
    requires n <= |vals|
  {
    forall j :: 0 <= j < n ==> vals[j].Some? && !Matches(vals[j].value, people)
  }

  /** The `for (const ship of ships.values())` walk of `getShip(people)`. */
  function ScanShips(vals: seq<Option<Ship>>, people: seq<ObjectId>): (r: Scan<Ship>)
    ensures r.Miss? <==> PassedOver(vals, people, |vals|)
    ensures r.Hit? ==>
      exists i :: 0 <= i < |vals| && vals[i] == Some(r.found) && Matches(r.found, people)
                  && PassedOver(vals, people, i)
    ensures r.NullEntry? ==>
      exists i :: 0 <= i < |vals| && vals[i].None? && PassedOver(vals, people, i)
  {
    if vals == [] then Miss
    else match vals[0]
      case None => NullEntry
      case Some(ship) =>
        if Matches(ship, people) then Hit(ship)
        else
          var r := ScanShips(vals[1..], people);
          assert forall i :: 0 < i <= |vals| && PassedOver(vals[1..], people, i - 1) ==>
                               PassedOver(vals, people, i);
          r
  }

  /** Two queries of one length with the same members select the same cached ship. */
  lemma {:induction false} LemmaScanSameMembers(vals: seq<Option<Ship>>, q1: seq<ObjectId>, q2: seq<ObjectId>)
    requires |q1| == |q2|
    requires forall p :: p in q1 <==> p in q2
    ensures ScanShips(vals, q1) == ScanShips(vals, q2)
  {
    if vals != [] && vals[0].Some? {
      assert Matches(vals[0].value, q1) == Matches(vals[0].value, q2);
      LemmaScanSameMembers(vals[1..], q1, q2);
    }
  }

  /** `[a, b]` and `[b, a]` select the same cached ship. */
  lemma LemmaScanPairOrder(vals: seq<Option<Ship>>, a: ObjectId, b: ObjectId)
    ensures ScanShips(vals, [a, b]) == ScanShips(vals, [b, a])
  {
    LemmaScanSameMembers(vals, [a, b], [b, a]);
  }

  /** The member-set test the lookup is meant to apply: the same people, counted with repeats. */
  predicate SameMembers(ship: Ship, people: seq<ObjectId>) {
    multiset(ship.people) == multiset(people)
  }

  /** A query naming one user twice matches a ship of that user and someone else. */
  lemma LemmaRepeatedMemberMatches(ship: Ship, x: ObjectId, y: ObjectId)
    requires x != y && ship.people == [x, y]
    ensures Matches(ship, [x, x])
    ensures !SameMembers(ship, [x, x])
  {
    assert multiset(ship.people)[y] == 1;
  }

  /** For a query without repeats the length-and-inclusion test is exactly member-set equality. */
  lemma LemmaMatchesIsSameMembers(ship: Ship, people: seq<ObjectId>)
    requires NoDuplicates(people)
    ensures Matches(ship, people) <==> SameMembers(ship, people)
  {
    if SameMembers(ship, people) {
      assert |ship.people| == |multiset(ship.people)| == |multiset(people)| == |people|;
      forall p | p in people
        ensures p in ship.people
      {
        assert p in multiset(people);
      }
    }
    if Matches(ship, people) {
      var mine, theirs := Elements(people), Elements(ship.people);
      LemmaElementsCard(people);
      LemmaElementsCard(ship.people);
      assert mine <= theirs;
      assert |mine| == |theirs| by {
        assert |mine| <= |theirs| by { LemmaSubsetCard(mine, theirs); }
      }
      assert NoDuplicates(ship.people);
      assert mine == theirs by { LemmaSubsetCardEqual(mine, theirs); }
      forall p
        ensures multiset(ship.people)[p] == multiset(people)[p]
      {
        LemmaMultisetNoDuplicates(people, p);
        LemmaMultisetNoDuplicates(ship.people, p);
        assert p in people <==> p in mine;
        assert p in ship.people <==> p in theirs;
      }
      assert multiset(ship.people) == multiset(people);
    }
  }

  lemma LemmaSubsetCard<T>(a: set<T>, b: set<T>)
    requires a <= b
    ensures |a| <= |b|
  {
    assert b == a + (b - a);
  }

  lemma LemmaSubsetCardEqual<T>(a: set<T>, b: set<T>)
    requires a <= b && |a| == |b|
    ensures a == b
  {
    assert b == a + (b - a);
    assert |b - a| == 0;
  }

  /** No cached value before position `n` stops the intended walk. */
  ghost predicate PassedOverIntended(vals: seq<Option<Ship>>, people: seq<ObjectId>, n: nat)
    requires n <= |vals|
  {
    forall j :: 0 <= j < n ==> vals[j].Some? && !SameMembers(vals[j].value, people)
  }

  /** The walk with the intended test: the first cached ship with the queried members. */
  function ScanShipsIntended(vals: seq<Option<Ship>>, people: seq<ObjectId>): (r: Scan<Ship>)
    ensures r.Miss? <==> PassedOverIntended(vals, people, |vals|)
    ensures r.Hit? ==>
      exists i :: 0 <= i < |vals| && vals[i] == Some(r.found) && SameMembers(r.found, people)
                  && PassedOverIntended(vals, people, i)
    ensures r.NullEntry? ==>
      exists i :: 0 <= i < |vals| && vals[i].None? && PassedOverIntended(vals, people, i)
  {
    if vals == [] then Miss
    else match vals[0]
      case None => NullEntry
      case Some(ship) =>
        if SameMembers(ship, people) then Hit(ship)
        else
          var r := ScanShipsIntended(vals[1..], people);
          assert forall i :: 0 < i <= |vals| && PassedOverIntended(vals[1..], people, i - 1) ==>
                               PassedOverIntended(vals, people, i);
          r
  }

  /**
   A query naming one user twice: `getShip`'s walk stops at an earlier-cached ship
   of that user and someone else, while the intended walk goes on to the ship
   whose people are that user twice.
   */
  lemma LemmaIntendedFindsRepeatedShip(a: Ship, b: Ship, x: ObjectId, y: ObjectId)
    requires x != y && a.people == [x, y] && b.people == [x, x]
    ensures ScanShips([Some(a), Some(b)], [x, x]) == Hit(a)
    ensures ScanShipsIntended([Some(a), Some(b)], [x, x]) == Hit(b)
  {
    LemmaRepeatedMemberMatches(a, x, y);
  }

  /**
   The intended walk answers every permutation of a query alike, and for a
   query without repeats (two different users) it agrees with `getShip`'s walk.
   */
  lemma {:induction false} LemmaScanIntended(vals: seq<Option<Ship>>, q1: seq<ObjectId>, q2: seq<ObjectId>)
    requires multiset(q1) == multiset(q2)
    ensures ScanShipsIntended(vals, q1) == ScanShipsIntended(vals, q2)
    ensures NoDuplicates(q1) ==> ScanShipsIntended(vals, q1) == ScanShips(vals, q1)
  {
    if vals != [] && vals[0].Some? {
      if NoDuplicates(q1) {
        LemmaMatchesIsSameMembers(vals[0].value, q1);
      }
      LemmaScanIntended(vals[1..], q1, q2);
    }
  }
}

=== FILE: outcomes.dfy ===
/** Option, Result and the store's per-call reachability, shared by every module. */
module Outcomes {

  /** A value that may be JavaScript's `null` (a store miss, a cached miss). */
  datatype Option<+T> = None | Some(value: T) {
    function GetOr(default: T): T {
      match this
      case Some(v) => v
      case None => default
    }
  }

  /** Why a promise was rejected. */
  datatype Failure =
    | StoreError   // the document store reported an error to its callback
    | TypeError    // a property of `null` was read, or `null` was passed to `Object.assign`

  /** A settled promise: resolved with a value or rejected with a failure. */
  datatype Result<+T> = Ok(value: T) | Err(error: Failure)

  /** How a walk over a cache's values ends. */
  datatype Scan<+T> =
    | Hit(found: T)   // the first cached value that passes the test
    | Miss            // every cached value is a document and none passes
    | NullEntry       // a cached `null` came first: reading a property of it throws

  /** The oracle answer for one store round trip: the call goes through, or the store reports an error. */
  datatype Io = Served | Refused
}

=== FILE: properties.dfy ===
/** What the entity store's operations promise when they are used one after another. */
module Properties {
  import opened Outcomes
  import opened Records
  import opened JsMaps
  import opened DocStore
  import opened Hex
  import opened Members
  import opened Shipping
  import opened DbManager

  /** A cache hit answers from the cache alone: neither the store's contents nor its reachability matter. */
  lemma LemmaGetUserHitIgnoresStore(st: State, id: string, io: Io, other: Store, io2: Io)
    requires Has(st.users, id)
    ensures GetUser(st, id, io).state == st
    ensures GetUser(st.(store := other), id, io2).result == GetUser(st, id, io).result
  {
  }

  /** The cache reads through: a second `getUser` repeats the first answer from the cache. */
  lemma LemmaGetUserTwice(st: State, id: string, io1: Io, io2: Io)
    ensures var s1 := GetUser(st, id, io1);
            s1.result.Ok? ==> GetUser(s1.state, id, io2) == s1
  {
  }

  /**
   Looking up a user the store does not have caches `null`, so `userExists` then
   answers true, and the `updateUser` that sign-in issues for an existing user
   throws on the cached `null`.
   */
  lemma LemmaGetUserMissPoisonsCache(st: State, id: string, p: Patch, io: Io)
    requires !Has(st.users, id) && !HasUser(st.store, id)
    ensures var s1 := GetUser(st, id, Served);
            && s1.result == Ok(None)
            && UserExists(s1.state, id, io) == Ok(true)
            && UserExists(st, id, Served) == Ok(false)
            && UpdateUser(s1.state, id, p, Served).result == Err(TypeError)
  {
  }

  /** Without the cached `null`, `userExists` keeps agreeing with the store after a miss. */
  lemma LemmaGetUserIntendedKeepsExists(st: State, id: string, io: Io)
    requires !Has(st.users, id)
    ensures var s1 := GetUserIntended(st, id, Served);
            UserExists(s1.state, id, io) == (if HasUser(st.store, id) then Ok(true) else UserExists(st, id, io))
  {
  }

  /** A registered user exists and is served from the cache at once, whatever the store answers. */
  lemma LemmaRegisterUserThenLookups(st: State, data: Profile, oid: ObjectId, now: int, io: Io)
    requires FindUserByOid(st.store, oid).None?
    ensures var r := RegisterUser(st, data, oid, now, Served);
            && UserExists(r.state, data.id, io) == Ok(true)
            && GetUser(r.state, data.id, io) == Step(r.state, Ok(Some(r.result.value)))
            && r.result.value.shipping == []
  {
  }

  /** A failed update changes nothing; an update of an uncached user creates no cache entry. */
  lemma LemmaUpdateUserCache(st: State, id: string, p: Patch, io: Io)
    ensures io.Refused? ==> UpdateUser(st, id, p, io).state == st
    ensures !Has(st.users, id) ==> !Has(UpdateUser(st, id, p, io).state.users, id)
  {
  }

  /**
   An update of a cached user is visible to the next `getUser`: the carried keys
   are overwritten and every other field is the cached one.
   */
  lemma LemmaUpdateThenGetUser(st: State, id: string, p: Patch, io: Io)
    requires Has(st.users, id) && Get(st.users, id).Some?
    ensures var r := UpdateUser(st, id, p, Served);
            var g := GetUser(r.state, id, io);
            && g.state == r.state
            && g.result == Ok(Some(Assign(Get(st.users, id).value, p)))
  {
    var r := UpdateUser(st, id, p, Served);
    var before := Get(st.users, id).value;
    LemmaAssignUnique(before, p, Get(r.state.users, id).value);
  }

  /** Repeating an update of a cached user leaves the cache as the first update left it. */
  lemma LemmaUpdateUserTwiceCache(st: State, id: string, p: Patch)
    requires Has(st.users, id) && Get(st.users, id).Some?
    ensures var r1 := UpdateUser(st, id, p, Served);
            var r2 := UpdateUser(r1.state, id, p, Served);
            && Has(r2.state.users, id) && Get(r2.state.users, id) == Get(r1.state.users, id)
            && SameExcept(r1.state.users, r2.state.users, id)
  {
    var r1 := UpdateUser(st, id, p, Served);
    var once := Get(r1.state.users, id).value;
    LemmaAssignUnique(Get(st.users, id).value, p, once);
    var r2 := UpdateUser(r1.state, id, p, Served);
    LemmaAssignUnique(once, p, Get(r2.state.users, id).value);
    LemmaAssignIdempotent(Get(st.users, id).value, p);
  }

  /**
   A user loaded by `_id` is cached under its own id and found by the next walk,
   so a second `getUserByMongoId` answers the same from the cache.
   */
  lemma LemmaGetUserByMongoIdTwice(st: State, oid: ObjectId, io1: Io, io2: Io)
    ensures var s1 := GetUserByMongoId(st, oid, io1);
            s1.result.Ok? && s1.result.value.Some? ==> GetUserByMongoId(s1.state, oid, io2) == s1
  {
    var s1 := GetUserByMongoId(st, oid, io1);
    var vals := Values(st.users);
    if s1.result.Ok? && s1.result.value.Some? && ScanUsers(vals, oid).Miss? {
      var u := s1.result.value.value;
      var vals' := Values(s1.state.users);
      var i := Find(st.users, u.id);
      assert vals'[i] == Some(u);
      forall j | 0 <= j < i
        ensures vals'[j].Some? && vals'[j].value.oid != oid
      {
        assert vals'[j] == vals[j];
      }
      LemmaScanUsersHitAt(vals', oid, i);
    }
  }

  /**
   A store miss cached by `getUser` goes last in iteration order, so a user the
   `getUserByMongoId` walk found before is still found: the `null` comes after it.
   */
  lemma LemmaGetUserMissKeepsEarlierHits(st: State, id: string, oid: ObjectId, i: nat)
    requires !Has(st.users, id)
    requires i < |st.users| && st.users[i].1.Some? && st.users[i].1.value.oid == oid
    requires forall j :: 0 <= j < i ==> st.users[j].1.Some? && st.users[j].1.value.oid != oid
    ensures ScanUsers(Values(st.users), oid) == Hit(st.users[i].1.value)
    ensures ScanUsers(Values(GetUser(st, id, Served).state.users), oid) == Hit(st.users[i].1.value)
  {
    var vals := Values(st.users);
    LemmaScanUsersHitAt(vals, oid, i);
    assert Values(GetUser(st, id, Served).state.users) == vals + [FindUser(st.store, id)];
    LemmaScanUsersHitAppend(vals, oid, FindUser(st.store, id));
  }

  /** The cache reads through: a second `getShip(id)` repeats the first answer from the cache. */
  lemma LemmaGetShipByIdTwice(st: State, id: string, io1: Io, io2: Io)
    ensures var s1 := GetShipById(st, id, io1);
            s1.result.Ok? ==> GetShipById(s1.state, id, io2) == s1
  {
  }

  /** Two users named in either order select the same ship and leave the same state. */
  lemma LemmaGetShipPairOrder(st: State, a: ObjectId, b: ObjectId, reply: Result<Option<Ship>>)
    requires reply.Err? ==> reply.error == StoreError
    ensures GetShipByMembers(st, [a, b], reply) == GetShipByMembers(st, [b, a], reply)
  {
    LemmaScanPairOrder(Values(st.ships), a, b);
  }

  /**
   A registered ship carries an id no cached or stored ship had when it was
   drawn, and right after it `shipExists` and `getShip` answer from the cache.
   */
  lemma LemmaRegisterShipThenLookups(st: State, data: ShipData, draws: seq<Draw>, oid: ObjectId, now: int, io: Io, io2: Io)
    requires forall i :: 0 <= i < |draws| ==> |draws[i].bytes| == 16
    requires exists k :: 0 <= k < |draws| && !Taken(st, draws[k])
    requires FindShipByOid(st.store, oid).None?
    ensures var r := RegisterShip(st, data, draws, oid, now, io);
            r.result.Ok? ==>
              var s := r.result.value;
              && !Has(st.ships, ById(s.id))
              && !HasShip(st.store, s.id)
              && |s.id| == 32
              && ShipExistsById(r.state, s.id, io2) == Ok(true)
              && GetShipById(r.state, s.id, io2) == Step(r.state, Ok(Some(s)))
  {
  }

  /**
   A ship loaded by `_id` is cached under its `people` array, so a later lookup
   by its id still misses the cache and goes back to the store.
   */
  lemma LemmaMongoIdLookupMissesById(st: State, oid: ObjectId, ref: nat, io: Io)
    requires !Has(st.ships, ByArray(ref))
    requires FindShipByOid(st.store, oid).Some?
    requires !Has(st.ships, ById(FindShipByOid(st.store, oid).value.id))
    ensures var x := FindShipByOid(st.store, oid).value;
            var r := GetShipByMongoId(st, oid, ref, Served);
            && r.result == Ok(Some(x))
            && !Has(r.state.ships, ById(x.id))
            && GetShipById(r.state, x.id, Refused).result == Err(StoreError)
            && Values(r.state.ships) == Values(st.ships) + [Some(x)]
  {
  }

  /**
   When shipping succeeds for the user's save but fails for the ship's, the store
   keeps a user who lists the ship and a ship that does not list the user.
   */
  lemma LemmaShipSaveFailureSplitsStore(st: State, u: User, s: Ship)
    requires s.oid !in u.shipping && u.oid !in s.shippers
    requires FindUserByOid(st.store, u.oid).Some?
    requires FindShipByOid(st.store, s.oid) == Some(s)
    ensures var r := ShipToggle(st, u, s, Served, Refused);
            && r.toggled.outcome == Rejected(StoreError)
            && FindUserByOid(r.state.store, u.oid) == Some(r.toggled.user)
            && s.oid in r.toggled.user.shipping
            && FindShipByOid(r.state.store, s.oid) == Some(s)
            && u.oid !in s.shippers
  {
    var r := ShipToggle(st, u, s, Served, Refused);
  }

  /** The cached copies of the two documents show the toggle to the next lookups. */
  lemma LemmaToggleVisibleInCache(st: State, u: User, s: Ship, first: Io, second: Io, io: Io)
    requires Has(st.users, u.id) && Get(st.users, u.id) == Some(u)
    requires Has(st.ships, ById(s.id)) && Get(st.ships, ById(s.id)) == Some(s)
    ensures var r := ShipToggle(st, u, s, first, second);
            && GetUser(r.state, u.id, io).result == Ok(Some(r.toggled.user))
            && GetShipById(r.state, s.id, io).result == Ok(Some(r.toggled.ship))
  {
  }
}

=== FILE: records.dfy ===
/** The two document kinds of the store, and the inputs that create and patch them. */
module Records {
  import opened Outcomes

  /** A store-assigned document id (`_id`). */
  datatype ObjectId = ObjectId(serial: nat)

  /** A user document. `id` is the identity provider's id, the key of the user cache. */
  datatype User = User(
    oid: ObjectId,
    id: string,
    username: string,
    avatar: string,
    discriminator: string,
    publicFlags: int,
    locale: string,
    premiumType: int,
    shipping: seq<ObjectId>,   // `_id`s of the ships this user takes part in
    joinedAt: int)

  /** A ship (pairing) document. `id` is the generated hexadecimal id, the key of the ship cache. */
  datatype Ship = Ship(
    oid: ObjectId,
    id: string,
    people: seq<ObjectId>,     // the paired users
    shippers: seq<ObjectId>,   // the users who take part in the ship
    createdBy: ObjectId,
    createdAt: int)

  /**
   The profile a new user is registered from, with the field names the identity
   provider uses (`public_flags`, `premium_type`).
   */
  datatype Profile = Profile(
    id: string,
    username: string,
    avatar: string,
    discriminator: string,
    public_flags: int,
    locale: string,
    premium_type: int)

  /** What a new ship is registered from. */
  datatype ShipData = ShipData(people: seq<ObjectId>, shippers: seq<ObjectId>, createdBy: ObjectId)

  /**
   The keys of an update that name user-schema paths; a `None` field is a key the
   update does not carry. Keys outside the schema reach neither the store nor a
   schema field of the cached document, so they have no counterpart here.
   */
  datatype Patch = Patch(
    id: Option<string>,
    username: Option<string>,
    avatar: Option<string>,
    discriminator: Option<string>,
    publicFlags: Option<int>,
    locale: Option<string>,
    premiumType: Option<int>,
    shipping: Option<seq<ObjectId>>,
    joinedAt: Option<int>)

  /** The document `new User({...})` builds from a profile. */
  function NewUser(data: Profile, oid: ObjectId, now: int): User {
    User(oid, data.id, data.username, data.avatar, data.discriminator,
         data.public_flags, data.locale, data.premium_type, [], now)
  }

  /** The document `new Ship({...})` builds. */
  function NewShip(data: ShipData, oid: ObjectId, id: string, now: int): Ship {
    Ship(oid, id, data.people, data.shippers, data.createdBy, now)
  }

  /** `Object.assign(u, data)`: every key the update carries overwrites that field. */
  function Assign(u: User, p: Patch): (r: User)
    ensures Takes(r, p) && Keeps(u, r, p)
  {
    u.(id := p.id.GetOr(u.id),
       username := p.username.GetOr(u.username),
       avatar := p.avatar.GetOr(u.avatar),
       discriminator := p.discriminator.GetOr(u.discriminator),
       publicFlags := p.publicFlags.GetOr(u.publicFlags),
       locale := p.locale.GetOr(u.locale),
       premiumType := p.premiumType.GetOr(u.premiumType),
       shipping := p.shipping.GetOr(u.shipping),
       joinedAt := p.joinedAt.GetOr(u.joinedAt))
  }

  /** `after` holds every value the update carries. */
  predicate Takes(after: User, p: Patch) {
    && (p.id.Some? ==> after.id == p.id.value)
    && (p.username.Some? ==> after.username == p.username.value)
    && (p.avatar.Some? ==> after.avatar == p.avatar.value)
    && (p.discriminator.Some? ==> after.discriminator == p.discriminator.value)
    && (p.publicFlags.Some? ==> after.publicFlags == p.publicFlags.value)
    && (p.locale.Some? ==> after.locale == p.locale.value)
    && (p.premiumType.Some? ==> after.premiumType == p.premiumType.value)
    && (p.shipping.Some? ==> after.shipping == p.shipping.value)
    && (p.joinedAt.Some? ==> after.joinedAt == p.joinedAt.value)
  }

  /** `after` agrees with `before` on `_id` and on every field the update does not carry. */
  predicate Keeps(before: User, after: User, p: Patch) {
    && after.oid == before.oid
    && (p.id.None? ==> after.id == before.id)
    && (p.username.None? ==> after.username == before.username)
    && (p.avatar.None? ==> after.avatar == before.avatar)
    && (p.discriminator.None? ==> after.discriminator == before.discriminator)
    && (p.publicFlags.None? ==> after.publicFlags == before.publicFlags)
    && (p.locale.None? ==> after.locale == before.locale)
    && (p.premiumType.None? ==> after.premiumType == before.premiumType)
    && (p.shipping.None? ==> after.shipping == before.shipping)
    && (p.joinedAt.None? ==> after.joinedAt == before.joinedAt)
  }

  /** Assigning is exactly "take the carried keys, keep the rest": no other result does both. */
  lemma LemmaAssignUnique(u: User, p: Patch, v: User)
    requires Takes(v, p) && Keeps(u, v, p)
    ensures v == Assign(u, p)
  {
    var a := Assign(u, p);
    assert v.oid == a.oid && v.id == a.id && v.username == a.username;
    assert v.avatar == a.avatar && v.discriminator == a.discriminator;
    assert v.publicFlags == a.publicFlags && v.locale == a.locale;
    assert v.premiumType == a.premiumType && v.shipping == a.shipping && v.joinedAt == a.joinedAt;
  }

  /** Assigning the same update twice is assigning it once. */
  lemma LemmaAssignIdempotent(u: User, p: Patch)
    ensures Assign(Assign(u, p), p) == Assign(u, p)
  {
  }
}

=== FILE: seqs.dfy ===
/** Facts about sequences without repeated elements, used by the toggle and the member test. */
module Seqs {

  ghost predicate NoDuplicates<T>(s: seq<T>) {
    forall i, j :: 0 <= i < j < |s| ==> s[i] != s[j]
  }

  ghost function Elements<T>(s: seq<T>): set<T> {
    set x | x in s
  }

  /** A list has no repeats exactly when it has as many distinct elements as entries. */
  lemma {:induction false} LemmaElementsCard<T>(s: seq<T>)
    ensures |Elements(s)| <= |s|
    ensures |Elements(s)| == |s| <==> NoDuplicates(s)
  {
    if s != [] {
      LemmaElementsCard(s[1..]);
      assert Elements(s) == {s[0]} + Elements(s[1..]);
      if s[0] in s[1..] {
        assert Elements(s) == Elements(s[1..]);
        var k :| 0 <= k < |s[1..]| && s[1..][k] == s[0];
        assert s[0] == s[k + 1];
      } else {
        assert NoDuplicates(s) <==> NoDuplicates(s[1..]) by {
          if NoDuplicates(s[1..]) {
            forall i, j | 0 <= i < j < |s|
              ensures s[i] != s[j]
            {
              if i > 0 {
                assert s[i] == s[1..][i - 1] && s[j] == s[1..][j - 1];
              } else {
                assert s[j] in s[1..];
              }
            }
          }
        }
      }
    }
  }

  /** In a list without repeats every element occurs once. */
  lemma {:induction false} LemmaMultisetNoDuplicates<T>(s: seq<T>, x: T)
    requires NoDuplicates(s)
    ensures multiset(s)[x] == if x in s then 1 else 0
  {
    if s != [] {
      assert s == [s[0]] + s[1..];
      assert NoDuplicates(s[1..]);
      LemmaMultisetNoDuplicates(s[1..], x);
      if x == s[0] {
        assert x !in s[1..];
      }
    }
  }

  /** `s` without its first `x`, or `s` itself when `x` does not occur. */
  function RemoveFirst<T(==)>(s: seq<T>, x: T): seq<T> {
    if s == [] then []
    else if s[0] == x then s[1..]
    else [s[0]] + RemoveFirst(s[1..], x)
  }

  /** Removing the first `x` takes out one copy of `x` and nothing else. */
  lemma {:induction false} LemmaRemoveFirstMultiset<T>(s: seq<T>, x: T)
    ensures multiset(RemoveFirst(s, x)) == multiset(s) - multiset{x}
  {
    if s != [] {
      assert s == [s[0]] + s[1..];
      if s[0] != x {
        var r := RemoveFirst(s[1..], x);
        LemmaRemoveFirstMultiset(s[1..], x);
        assert multiset([s[0]] + r) == multiset{s[0]} + multiset(r);
      }
    }
  }

  /** Without `x` in it the list is unchanged; with `x` it gets one shorter. */
  lemma {:induction false} LemmaRemoveFirstLength<T>(s: seq<T>, x: T)
    ensures x !in s ==> RemoveFirst(s, x) == s
    ensures x in s ==> |RemoveFirst(s, x)| == |s| - 1
  {
    if s != [] && s[0] != x {
      LemmaRemoveFirstLength(s[1..], x);
      assert x in s ==> x in s[1..];
      assert [s[0]] + s[1..] == s;
    }
  }

  /** The first `x` of `s + [x]`, with `x` absent from `s`, is the appended one. */
  lemma {:induction false} LemmaRemoveFirstAppended<T>(s: seq<T>, x: T)
    requires x !in s
    ensures RemoveFirst(s + [x], x) == s
  {
    if s == [] {
      assert [x][1..] == [];
    } else {
      assert (s + [x])[1..] == s[1..] + [x];
      LemmaRemoveFirstAppended(s[1..], x);
      assert [s[0]] + s[1..] == s;
    }
  }

  /** A value absent from `r` can go in front of `r` without making a repeat. */
  lemma LemmaConsNoDuplicates<T>(a: T, r: seq<T>)
    requires NoDuplicates(r) && a !in r
    ensures NoDuplicates([a] + r)
  {
    forall i, j | 0 <= i < j < |[a] + r|
      ensures ([a] + r)[i] != ([a] + r)[j]
    {
      assert ([a] + r)[j] == r[j - 1];
    }
  }

  /** Removing from a list without repeats keeps it so, and leaves no copy of `x`. */
  lemma {:induction false} LemmaRemoveFirstNoDuplicates<T>(s: seq<T>, x: T)
    requires NoDuplicates(s)
    ensures NoDuplicates(RemoveFirst(s, x)) && x !in RemoveFirst(s, x)
  {
    if s != [] {
      assert NoDuplicates(s[1..]);
      if s[0] == x {
        LemmaMultisetNoDuplicates(s, x);
        assert s == [s[0]] + s[1..];
      } else {
        var r := RemoveFirst(s[1..], x);
        LemmaRemoveFirstNoDuplicates(s[1..], x);
        LemmaRemoveFirstMultiset(s[1..], x);
        assert s[0] !in s[1..];
        assert multiset(r)[s[0]] == 0;
        LemmaConsNoDuplicates(s[0], r);
      }
    }
  }
}

=== FILE: shipping.dfy ===
/**
 The participation toggle `ship(user, ship)`: the user's `shipping` list and the
 ship's `shippers` list are edited together, in memory first, then saved.
 */
module Shipping {
  import opened Outcomes
  import opened Records
  import opened JsArrays
  import opened Seqs

  /** How the promise returned by `ship` settles. */
  datatype Outcome = Done | Rejected(error: Failure)

  /**
   What `ship(user, ship)` leaves behind: both argument documents as mutated in
   memory, which of them were written to the store, and the outcome.
   */
  datatype Toggled = Toggled(user: User, ship: Ship, shipSaved: bool, userSaved: bool, outcome: Outcome)

  /** The two lists agree about whether `u` takes part in `s`. */
  predicate Linked(u: User, s: Ship) {
    s.oid in u.shipping <==> u.oid in s.shippers
  }

  /**
   `ship(user, ship)`. `first` and `second` answer the two saves in the order the
   branch issues them: the ship then the user when un-shipping, the user then the
   ship when shipping.
   */
  function Toggle(u: User, s: Ship, first: Io, second: Io): (t: Toggled)
    // nothing but the two lists changes
    ensures t.user == u.(shipping := t.user.shipping)
    ensures t.ship == s.(shippers := t.ship.shippers)
    // un-ship: the first occurrence of the ship leaves `shipping` ...
    ensures s.oid in u.shipping ==> t.user.shipping == RemoveFirst(u.shipping, s.oid)
    // ... and the first occurrence of the user leaves `shippers`
    ensures s.oid in u.shipping && u.oid in s.shippers ==>
      t.ship.shippers == RemoveFirst(s.shippers, u.oid)
    // ... but a user who is not a shipper makes the last shipper leave instead
    ensures s.oid in u.shipping && u.oid !in s.shippers ==>
      t.ship.shippers == (if s.shippers == [] then [] else s.shippers[..|s.shippers| - 1])
    ensures s.oid in u.shipping ==>
      && t.shipSaved == first.Served?
      && t.userSaved == (first.Served? && second.Served?)
    // ship: the ship is appended to `shipping`, and the user to `shippers` once the user is saved
    ensures s.oid !in u.shipping ==>
      && t.user.shipping == u.shipping + [s.oid]
      && t.userSaved == first.Served?
    ensures s.oid !in u.shipping && (first.Refused? || u.oid in s.shippers) ==>
      t.ship == s && !t.shipSaved
    ensures s.oid !in u.shipping && first.Served? && u.oid !in s.shippers ==>
      t.ship.shippers == s.shippers + [u.oid] && t.shipSaved == second.Served?
    // either way the promise resolves exactly when every save it issued went through
    ensures t.outcome == Done <==> t.userSaved && (t.shipSaved || (s.oid !in u.shipping && u.oid in s.shippers))
    ensures t.outcome.Rejected? ==> t.outcome.error == StoreError
  {
    if s.oid in u.shipping then
      LemmaSpliceFindIndex(u.shipping, s.oid);
      LemmaSpliceFindIndex(s.shippers, u.oid);
      var user := u.(shipping := SpliceOne(u.shipping, FindIndex(u.shipping, s.oid)));
      var ship := s.(shippers := SpliceOne(s.shippers, FindIndex(s.shippers, u.oid)));
      if first.Refused? then Toggled(user, ship, false, false, Rejected(StoreError))
      else if second.Refused? then Toggled(user, ship, true, false, Rejected(StoreError))
      else Toggled(user, ship, true, true, Done)
    else
      var user := u.(shipping := u.shipping + [s.oid]);
      if first.Refused? then Toggled(user, s, false, false, Rejected(StoreError))
      else if u.oid in s.shippers then Toggled(user, s, false, true, Done)
      else
        var ship := s.(shippers := s.shippers + [u.oid]);
        if second.Refused? then Toggled(user, ship, false, true, Rejected(StoreError))
        else Toggled(user, ship, true, true, Done)
  }

  /**
   Neither list gains a repeat: the ship is appended only when absent from
   `shipping`, the user only when absent from `shippers`, and un-shipping only removes.
   */
  lemma LemmaToggleKeepsNoDuplicates(u: User, s: Ship, first: Io, second: Io)
    requires NoDuplicates(u.shipping) && NoDuplicates(s.shippers)
    ensures var t := Toggle(u, s, first, second);
            NoDuplicates(t.user.shipping) && NoDuplicates(t.ship.shippers)
  {
    LemmaRemoveFirstNoDuplicates(u.shipping, s.oid);
    LemmaRemoveFirstNoDuplicates(s.shippers, u.oid);
  }

  /**
   Un-shipping right after shipping gives the user back exactly: the appended
   ship is the first occurrence, whatever the saves answered.
   */
  lemma LemmaToggleTwiceRestoresUser(u: User, s: Ship, a1: Io, a2: Io, b1: Io, b2: Io)
    requires s.oid !in u.shipping
    ensures var t1 := Toggle(u, s, a1, a2);
            Toggle(t1.user, t1.ship, b1, b2).user == u
  {
    LemmaRemoveFirstAppended(u.shipping, s.oid);
  }

  /**
   Toggling twice from "ship not in `shipping`" with the first save served takes
   exactly one copy of the user out of `shippers`. So the ship is restored when the
   user was not a shipper, and loses the user when the user already was one (as the
   creator of a fresh ship is).
   */
  lemma LemmaToggleTwiceShippers(u: User, s: Ship, a2: Io, b1: Io, b2: Io)
    requires s.oid !in u.shipping
    ensures var t1 := Toggle(u, s, Served, a2);
            var t2 := Toggle(t1.user, t1.ship, b1, b2);
            && multiset(t2.ship.shippers) == multiset(s.shippers) - multiset{u.oid}
            && (t2.ship == s <==> u.oid !in s.shippers)
  {
    var w := if u.oid in s.shippers then s.shippers else s.shippers + [u.oid];
    LemmaShipThenUnship(u, s, a2, b1, b2);
    LemmaRemoveFirstMultiset(w, u.oid);
    LemmaRemoveFirstLength(w, u.oid);
    if u.oid !in s.shippers {
      LemmaRemoveFirstAppended(s.shippers, u.oid);
    }
  }

  /** A served ship followed by an un-ship leaves the ship with the user's first copy removed. */
  lemma LemmaShipThenUnship(u: User, s: Ship, a2: Io, b1: Io, b2: Io)
    requires s.oid !in u.shipping
    ensures var t1 := Toggle(u, s, Served, a2);
            var w := if u.oid in s.shippers then s.shippers else s.shippers + [u.oid];
            && t1.ship == s.(shippers := w)
            && Toggle(t1.user, t1.ship, b1, b2).ship == s.(shippers := RemoveFirst(w, u.oid))
  {
  }

  /**
   From linked, duplicate-free lists, a toggle whose first save is served (or any
   un-ship, which edits both lists before saving) leaves them linked and duplicate-free.
   */
  lemma LemmaToggleKeepsLinked(u: User, s: Ship, first: Io, second: Io)
    requires Linked(u, s) && NoDuplicates(u.shipping) && NoDuplicates(s.shippers)
    requires first.Served? || s.oid in u.shipping
    ensures var t := Toggle(u, s, first, second);
            && Linked(t.user, t.ship)
            && NoDuplicates(t.user.shipping) && NoDuplicates(t.ship.shippers)
  {
    LemmaToggleKeepsNoDuplicates(u, s, first, second);
  }

  /** From linked lists with the ship not yet taken and the first user save served, toggling twice restores both documents. */
  lemma LemmaToggleTwiceFromLinked(u: User, s: Ship, a2: Io, b1: Io, b2: Io)
    requires Linked(u, s) && s.oid !in u.shipping
    ensures var t1 := Toggle(u, s, Served, a2);
            var t2 := Toggle(t1.user, t1.ship, b1, b2);
            t2.user == u && t2.ship == s
  {
    LemmaToggleTwiceRestoresUser(u, s, Served, a2, b1, b2);
    LemmaToggleTwiceShippers(u, s, a2, b1, b2);
  }

  /**
   A ship whose user save is refused still leaves the in-memory user listing the
   ship, and the ship untouched. A second toggle then un-ships: the user comes back
   as before. A user already among the shippers (a creator) leaves `shippers`;
   otherwise `splice(-1, 1)` takes the last shipper, who is someone else.
   */
  lemma LemmaRefusedShipThenUnship(u: User, s: Ship, a2: Io, b1: Io, b2: Io)
    requires s.oid !in u.shipping
    ensures var t1 := Toggle(u, s, Refused, a2);
            var t2 := Toggle(t1.user, t1.ship, b1, b2);
            && t1.ship == s && !t1.userSaved
            && t2.user == u
            && (u.oid in s.shippers ==> t2.ship.shippers == RemoveFirst(s.shippers, u.oid))
            && (u.oid !in s.shippers && s.shippers != [] ==>
                  && t2.ship.shippers == s.shippers[..|s.shippers| - 1]
                  && s.shippers[|s.shippers| - 1] != u.oid)
            && (s.shippers == [] ==> t2.ship.shippers == [])
  {
    LemmaRemoveFirstAppended(u.shipping, s.oid);
  }

  /**
   Un-shipping a user who is not among the shippers, whatever the saves answer:
   `findIndex` answers -1 and `splice(-1, 1)` takes out the last shipper, a
   different user, who loses one of their places.
   */
  lemma LemmaUnshipDropsOtherShipper(u: User, s: Ship, first: Io, second: Io)
    requires s.oid in u.shipping && u.oid !in s.shippers
    ensures s.shippers == [] ==> Toggle(u, s, first, second).ship.shippers == []
    ensures s.shippers != [] ==>
      var last := s.shippers[|s.shippers| - 1];
      var t := Toggle(u, s, first, second);
      && last != u.oid
      && t.ship.shippers == s.shippers[..|s.shippers| - 1]
      && multiset(t.ship.shippers)[last] == multiset(s.shippers)[last] - 1
  {
    if s.shippers != [] {
      var n := |s.shippers| - 1;
      assert s.shippers == s.shippers[..n] + [s.shippers[n]];
    }
  }

  /** The toggle with the shipper list left alone when the user is not on it. */
  function ToggleIntended(u: User, s: Ship, first: Io, second: Io): (t: Toggled)
    ensures forall x :: x != u.oid ==> multiset(t.ship.shippers)[x] == multiset(s.shippers)[x]
    ensures t.user == Toggle(u, s, first, second).user
    ensures u.oid in s.shippers || s.oid !in u.shipping ==> t == Toggle(u, s, first, second)
  {
    var t := Toggle(u, s, first, second);
    if s.oid in u.shipping && u.oid !in s.shippers then
      t.(ship := s)
    else
      LemmaToggleTouchesOnlyUser(u, s, first, second);
      t
  }

  /** When the user is a shipper, or the toggle ships, no other user's entries in `shippers` change. */
  lemma LemmaToggleTouchesOnlyUser(u: User, s: Ship, first: Io, second: Io)
    requires u.oid in s.shippers || s.oid !in u.shipping
    ensures var t := Toggle(u, s, first, second);
            forall x :: x != u.oid ==> multiset(t.ship.shippers)[x] == multiset(s.shippers)[x]
  {
    LemmaRemoveFirstMultiset(s.shippers, u.oid);
  }
}

=== FILE: store.dfy ===
/**
 The document store behind the caches: the `users` and `ships` collections, each
 a list of documents in natural order.
 */
module DocStore {
  import opened Outcomes
  import opened Records

  datatype Store = Store(users: seq<User>, ships: seq<Ship>)

  /** The position of the first document passing `p`, or `|docs|`. */
  function FirstIndex<T>(docs: seq<T>, p: T -> bool): (i: nat)
    ensures i <= |docs|
    ensures i < |docs| ==> p(docs[i])
    ensures forall j :: 0 <= j < i ==> !p(docs[j])
  {
    if docs == [] then 0
    else if p(docs[0]) then 0
    else 1 + FirstIndex(docs[1..], p)
  }

  /** `findOne(filter)` / `findById(id)`: the first matching document, or `null`. */
  function First<T>(docs: seq<T>, p: T -> bool): (r: Option<T>)
    ensures r.None? <==> forall i :: 0 <= i < |docs| ==> !p(docs[i])
    ensures r.Some? ==> FirstIndex(docs, p) < |docs| && r.value == docs[FirstIndex(docs, p)] && p(r.value)
  {
    var i := FirstIndex(docs, p);
    if i < |docs| then Some(docs[i]) else None
  }

  /** `User.findOne({ id })`: found exactly when `User.exists({ id })` holds. */
  function FindUser(st: Store, id: string): (r: Option<User>)
    ensures r.Some? <==> HasUser(st, id)
    ensures r.Some? ==> r.value.id == id && r.value in st.users
  {
    First(st.users, (u: User) => u.id == id)
  }

  function FindUserByOid(st: Store, oid: ObjectId): Option<User> {
    First(st.users, (u: User) => u.oid == oid)
  }

  function FindShip(st: Store, id: string): Option<Ship> {
    First(st.ships, (s: Ship) => s.id == id)
  }

  function FindShipByOid(st: Store, oid: ObjectId): Option<Ship> {
    First(st.ships, (s: Ship) => s.oid == oid)
  }

  /** `User.exists({ id })`. */
  predicate HasUser(st: Store, id: string) {
    exists i :: 0 <= i < |st.users| && st.users[i].id == id
  }

  /** `Ship.exists({ id })`. */
  predicate HasShip(st: Store, id: string) {
    exists i :: 0 <= i < |st.ships| && st.ships[i].id == id
  }

  /** `findOneAndUpdate({ id }, data)`: the first user with that id takes the update. */
  function UpdateFirstUser(st: Store, id: string, p: Patch): (r: Store)
    ensures r.ships == st.ships && |r.users| == |st.users|
    ensures FindUser(st, id).Some? ==>
      exists i :: 0 <= i < |st.users| && Some(st.users[i]) == FindUser(st, id)
                  && r.users == st.users[i := Assign(st.users[i], p)]
    ensures FindUser(st, id).None? ==> r == st
  {
    var i := FirstIndex(st.users, (u: User) => u.id == id);
    if i < |st.users| then st.(users := st.users[i := Assign(st.users[i], p)]) else st
  }

  /**
   `doc.save()` of an existing user: the stored copy with its `_id` is replaced.
   Afterwards `findById` of that `_id` gives the saved copy, and of any other
   `_id` gives what it gave before.
   */
  function SaveUser(st: Store, u: User): (r: Store)
    ensures r.ships == st.ships && |r.users| == |st.users|
    ensures forall i :: 0 <= i < |st.users| ==>
      r.users[i] == if st.users[i].oid == u.oid then u else st.users[i]
    ensures FindUserByOid(st, u.oid).Some? ==> FindUserByOid(r, u.oid) == Some(u)
    ensures FindUserByOid(st, u.oid).None? ==> r == st
    ensures forall o :: o != u.oid ==> FindUserByOid(r, o) == FindUserByOid(st, o)
  {
    var r := st.(users := seq(|st.users|, i requires 0 <= i < |st.users| =>
                                if st.users[i].oid == u.oid then u else st.users[i]));
    LemmaSaveUserLookups(st, u, r);
    r
  }

  lemma LemmaSaveUserLookups(st: Store, u: User, r: Store)
    requires r.ships == st.ships && |r.users| == |st.users|
    requires forall i :: 0 <= i < |st.users| ==>
      r.users[i] == if st.users[i].oid == u.oid then u else st.users[i]
    ensures FindUserByOid(st, u.oid).Some? ==> FindUserByOid(r, u.oid) == Some(u)
    ensures FindUserByOid(st, u.oid).None? ==> r == st
    ensures forall o :: o != u.oid ==> FindUserByOid(r, o) == FindUserByOid(st, o)
  {
    forall o | o != u.oid
      ensures FindUserByOid(r, o) == FindUserByOid(st, o)
    {
      LemmaFirstSame(r.users, st.users, (x: User) => x.oid == o);
    }
    var p := (x: User) => x.oid == u.oid;
    var i := FirstIndex(st.users, p);
    if i < |st.users| {
      assert forall j :: 0 <= j < i ==> r.users[j] == st.users[j];
      LemmaFirstIndexAt(r.users, p, i);
    } else {
      assert r.users == st.users;
    }
  }

  /**
   `doc.save()` of an existing ship: the stored copy with its `_id` is replaced,
   with the same effect on lookups by `_id` as a user's save.
   */
  function SaveShip(st: Store, s: Ship): (r: Store)
    ensures r.users == st.users && |r.ships| == |st.ships|
    ensures forall i :: 0 <= i < |st.ships| ==>
      r.ships[i] == if st.ships[i].oid == s.oid then s else st.ships[i]
    ensures FindShipByOid(st, s.oid).Some? ==> FindShipByOid(r, s.oid) == Some(s)
    ensures FindShipByOid(st, s.oid).None? ==> r == st
    ensures forall o :: o != s.oid ==> FindShipByOid(r, o) == FindShipByOid(st, o)
  {
    var r := st.(ships := seq(|st.ships|, i requires 0 <= i < |st.ships| =>
                                if st.ships[i].oid == s.oid then s else st.ships[i]));
    LemmaSaveShipLookups(st, s, r);
    r
  }

  lemma LemmaSaveShipLookups(st: Store, s: Ship, r: Store)
    requires r.users == st.users && |r.ships| == |st.ships|
    requires forall i :: 0 <= i < |st.ships| ==>
      r.ships[i] == if st.ships[i].oid == s.oid then s else st.ships[i]
    ensures FindShipByOid(st, s.oid).Some? ==> FindShipByOid(r, s.oid) == Some(s)
    ensures FindShipByOid(st, s.oid).None? ==> r == st
    ensures forall o :: o != s.oid ==> FindShipByOid(r, o) == FindShipByOid(st, o)
  {
    forall o | o != s.oid
      ensures FindShipByOid(r, o) == FindShipByOid(st, o)
    {
      LemmaFirstSame(r.ships, st.ships, (x: Ship) => x.oid == o);
    }
    var p := (x: Ship) => x.oid == s.oid;
    var i := FirstIndex(st.ships, p);
    if i < |st.ships| {
      assert forall j :: 0 <= j < i ==> r.ships[j] == st.ships[j];
      LemmaFirstIndexAt(r.ships, p, i);
    } else {
      assert r.ships == st.ships;
    }
  }

  /** Two collections that agree wherever `p` holds, and on where it holds, have the same first match. */
  lemma {:induction false} LemmaFirstSame<T>(a: seq<T>, b: seq<T>, p: T -> bool)
    requires |a| == |b|
    requires forall i :: 0 <= i < |a| ==> (p(a[i]) <==> p(b[i]))
    requires forall i :: 0 <= i < |a| && p(a[i]) ==> a[i] == b[i]
    ensures FirstIndex(a, p) == FirstIndex(b, p) && First(a, p) == First(b, p)
  {
    if a != [] && !p(a[0]) {
      assert forall i :: 0 <= i < |a| - 1 ==> a[1..][i] == a[i + 1] && b[1..][i] == b[i + 1];
      LemmaFirstSame(a[1..], b[1..], p);
    }
  }

  /** The first index is the one where `p` first holds. */
  lemma LemmaFirstIndexAt<T>(docs: seq<T>, p: T -> bool, i: nat)
    requires i < |docs| && p(docs[i])
    requires forall j :: 0 <= j < i ==> !p(docs[j])
    ensures FirstIndex(docs, p) == i
  {
  }
}
